=== FILE: README.md ===
# Crypto dashboard view logic in Dafny

This project models the view-model logic of a cryptocurrency market dashboard
written in React and TypeScript, and proves properties of it. The dashboard
loads the top 500 coins of a market-data provider in two pages of 250, and a
trending feed beside them. It shows:

- a highlights section: trending coins joined onto the catalog, top gainers and
  top losers, and a "view more" dialog;
- a sortable, paginated market table;
- a details dialog per coin.

A second data path, the `useCoinGecko` hook, loads one 50-coin page of the
same market listing at a time (the page held in its state), with a search
filter and a sort by any key of a coin. Its page size and query parameters
belong to the repository layer, which is not part of this model.

Modules (one per source file, plus shared helpers):

| module | file | models |
|---|---|---|
| `Js` | js.dfy | JavaScript value semantics the views rely on. A JSON number field is absent, `null` or a number. A JavaScript number may also be NaN or an infinity. It also covers truthiness, `??`, `ToNumber`, thrown values, and settled promises (`Outcome`). |
| `ArrayOps` | array_ops.dfy | `filter`, `slice` with negative indices, spread concatenation, and a stable comparator sort with its permutation, order and stability lemmas |
| `Text` | text.dfy | ASCII `toLowerCase`, `indexOf`/`includes`, `split`/`join` on a non-empty separator, and string `<` |
| `CoinTypes` | coin.dfy | the records of `src/types/Coin.ts` |
| `Search` | search.dfy | the name/symbol substring filter, shared by the highlights section and the hook |
| `Sparkline` | sparkline.dfy | chart points numbered from a given first index |
| `CoinsTable` | coins_table.dfy | `CoinsTable.tsx` |
| `Pagination` | pagination.dfy | `common/Pagination.tsx` |
| `Highlights` | highlights.dfy | `HighlightsSection.tsx` |
| `CoinGeckoHook` | use_coin_gecko.dfy | `useCoinGecko.ts` |
| `DetailsModal` | coin_details_modal.dfy | `CoinDetailsModal.tsx` |
| `App` | app.dfy | `App.tsx` |

How React and the runtime are modelled:

- React state becomes an immutable record. Each handler or effect is a function from the old record to the new one.
- Network answers are parameters:
  - `Outcome<T>` for one awaited request;
  - a page-number-to-outcome function for the paged catalog load;
  - a `marketFirst` flag that says which request of a `Promise.all` rejected first.
- Rendered cells are structured `Shown` values. The value and the routine that would print its digits are recorded, but the digits themselves are not interpreted.

Sorting uses `Array.prototype.sort`, which section 23.1.3.30 of ECMA-262 requires to be stable. It is modelled as one stable insertion sort over a comparator `(a, b) -> real`. A NaN comparator result is read as 0, as the standard's SortCompare does. The sort is a permutation for every comparator. It is proved ordered and stable only for a comparator that is consistent on the input (antisymmetric sign, transitive "not after"). That is the only case in which the standard fixes the order.

Two sort-direction defaults are kept apart on purpose, as the code has them:

- `CoinsTable.HandleSort` selects a new column in descending order.
- `CoinGeckoHook.RequestSort` selects a new key in ascending order.

## Model

| member | source | states |
|---|---|---|
| CoinsTable.HandleSort | src/components/CoinsTable.tsx:27-34 | clicking the current key keeps it and flips the order; any other key is selected with a descending order |
| CoinsTable.HandleSortToggles | src/components/CoinsTable.tsx:27-34 | two clicks on the current key restore the state; a new key's result does not depend on the previous order |
| CoinsTable.SortArrow | src/components/CoinsTable.tsx:36-39 | an arrow shows exactly on the active column and points up exactly when ascending |
| CoinsTable.ArrowFollowsClick | src/components/CoinsTable.tsx:27-39 | after a header click exactly the clicked column shows an arrow |
| CoinsTable.SortValue | src/components/CoinsTable.tsx:62-81 | the value a column sorts on is the field when it is a number and 0 when it is missing or null |
| CoinsTable.SortedCoins | src/components/CoinsTable.tsx:60 | the displayed rows are a permutation of the catalog, which is a value and stays unchanged |
| CoinsTable.ComparatorConsistent | src/components/CoinsTable.tsx:60-83 | the column comparator is consistent on every catalog |
| CoinsTable.NoKeyKeepsOrder | src/components/CoinsTable.tsx:59-61 | with no sort key the rows keep the catalog order, in either direction |
| CoinsTable.SortedByColumn | src/components/CoinsTable.tsx:60-83 | ascending yields non-decreasing column values, descending non-increasing ones |
| CoinsTable.SortIsStableOnColumn | src/components/CoinsTable.tsx:60-83 | rows with equal column values keep their relative catalog order |
| CoinsTable.FormatNumber | src/components/CoinsTable.tsx:41-47 | "-" exactly for a missing value or NaN. A scaled result carries B, M or K, and its mantissa times the divisor gives back the value. The mantissa is above 1, and at most 1000 below billions. The plain `toString` rendering is used exactly for a number that is not NaN and not above 1000, which includes every negative number and negative infinity. |
| CoinsTable.FormatNumberBranches | src/components/CoinsTable.tsx:41-47 | 0 renders as itself. A value is scaled iff it exceeds 1000, and takes B iff it exceeds 1e9. The thresholds are strict, so 1e9 is 1000.00M. |
| CoinsTable.GenerateSparkline | src/components/CoinsTable.tsx:49-57 | no series gives no points; otherwise the point values are the prices in order, numbered from 0 |
| CoinsTable.TotalPages | src/components/CoinsTable.tsx:86 | the page count is the least number of pages that holds every row (the ceiling of n / pageSize) |
| CoinsTable.VisibleWindow | src/components/CoinsTable.tsx:87-88 | page p shows exactly the rows at indices [(p-1)·size, min(p·size, n)). The number printed beside a row is its 1-based position in the sorted list. |
| CoinsTable.PagesNonEmpty | src/components/CoinsTable.tsx:86-88 | every page from 1 to the last is non-empty; all but the last are full and the last holds the remainder |
| CoinsTable.PageZeroIsEmpty | src/components/CoinsTable.tsx:87-88 | page 0 shows no rows |
| CoinsTable.PrevPage | src/components/CoinsTable.tsx:89 | Prev goes to page 1 from page 1 or below (page 0 included) and otherwise steps back one page |
| CoinsTable.NextPage | src/components/CoinsTable.tsx:90 | Next never goes above the page count and otherwise steps forward one page; with no pages it yields 0 |
| CoinsTable.DisabledButtonsAreNoOps | src/components/CoinsTable.tsx:203-217 | a disabled Prev or Next button is one whose handler would leave the page unchanged |
| CoinsTable.StepKeepsPageInRange | src/components/CoinsTable.tsx:86-91 | header clicks, Prev, Next and clicks on a rendered page button keep the page within [1, page count] (0 or 1 when there are no pages) |
| CoinsTable.InitialPageInRange | src/components/CoinsTable.tsx:20 | the initial page 1 is in range for any catalog |
| Pagination.PageItems | src/components/common/Pagination.tsx:14-25 | the items are numbered 1..totalPages in order (none when totalPages ≤ 0), and an item is active iff its number is the current page |
| Pagination.OneActiveItem | src/components/common/Pagination.tsx:19 | exactly one item is active when the current page is in range, none otherwise |
| Pagination.PrevTarget | src/components/common/Pagination.tsx:32 | Prev requests exactly the page before the current one |
| Pagination.NextTarget | src/components/common/Pagination.tsx:37 | Next requests exactly the page after the current one |
| Pagination.PrevNextInverse | src/components/common/Pagination.tsx:30-37 | Prev undoes Next and Next undoes Prev, and the current page lies strictly between their targets |
| Pagination.EnabledTargetsInRange | src/components/common/Pagination.tsx:30-37 | from a page in range, an enabled Prev or Next requests a page in range |
| Pagination.NextNotClamped | src/components/common/Pagination.tsx:35-37 | with no pages, Next on page 1 is enabled and requests page 2: the control does not clamp |
| Sparkline.Points | src/components/CoinDetailsModal.tsx:66-69 | one point per sample, numbered consecutively from the first index, with the samples as values in order |
| Search.MatchesIff | src/components/HighlightsSection.tsx:60-64 | a coin matches iff the lower-cased query occurs in its lower-cased name or symbol |
| Search.MatchesIgnoresCase | src/hooks/useCoinGecko.ts:45-51 | matching ignores the case of the query, and the empty query matches every coin |
| Search.FilterCoins | src/components/HighlightsSection.tsx:60-64 | the filter keeps exactly the matching coins and keeps them in catalog order (a subsequence) |
| Search.FilterEmptyQuery | src/components/HighlightsSection.tsx:60-64 | the empty query keeps the whole catalog |
| Text.IncludesIff | src/hooks/useCoinGecko.ts:48-49 | `includes` holds iff the query occurs at some index; the empty string is always included |
| Text.JoinSplit | src/components/CoinDetailsModal.tsx:197 | joining the pieces of a split with the same separator gives back the text |
| Text.SplitPiecesFree | src/components/CoinDetailsModal.tsx:197 | no piece of a split contains the separator |
| Text.LexStrictTotal | src/hooks/useCoinGecko.ts:56-59 | string `<` is irreflexive, asymmetric and total on distinct strings |
| Text.LexTransitive | src/hooks/useCoinGecko.ts:56-59 | string `<` is transitive |
| ArrayOps.Sort | src/components/CoinsTable.tsx:60 | the sorted copy is a permutation of its input for any comparator |
| ArrayOps.SortIsSorted | src/components/CoinsTable.tsx:60-83 | under a comparator consistent on the input, no element is followed by one the comparator puts first |
| ArrayOps.SortIsStable | src/components/CoinsTable.tsx:60-83 | elements of one tie class of a consistent comparator keep their relative order |
| ArrayOps.SortOfSorted | src/components/CoinsTable.tsx:60-83 | sorting an already ordered sequence returns it unchanged |
| ArrayOps.SortWithZeroComparator | src/components/CoinsTable.tsx:59-61 | a comparator that ties everything leaves the input order unchanged |
| ArrayOps.SliceWindow | src/components/CoinsTable.tsx:88 | `slice(start, end)` with non-negative bounds is the window [start, min(end, n)) |
| ArrayOps.SlicePrefix | src/components/HighlightsSection.tsx:136 | `slice(0, k)` is the prefix of length min(k, n) |
| ArrayOps.Concat | src/App.tsx:38 | the spread concatenation holds as many rows as the pages together |
| ArrayOps.FilterIsSubsequence | src/hooks/useCoinGecko.ts:46-50 | `filter` keeps the relative order of the kept elements |
| Highlights.FindIndex | src/components/HighlightsSection.tsx:46 | `find` returns the first catalog row with the id, and nothing exactly when no row has it |
| Highlights.Spread | src/components/HighlightsSection.tsx:47-50 | with a match, every key of the catalog row wins and the item keeps only its thumb and BTC price. Without a match, the row is exactly the item, with every catalog-only key absent. |
| Highlights.MergeAll | src/components/HighlightsSection.tsx:45-51 | the merged list is the feed in order, each entry merged with its first catalog match |
| Highlights.TrendingWithMarketData | src/components/HighlightsSection.tsx:44-51 | a missing feed gives the empty list, a present one a list of the same length |
| Highlights.MergeFollowsFeed | src/components/HighlightsSection.tsx:44-51 | each merged row is the first catalog row with the item's id when there is one, and otherwise the item alone |
| Highlights.TrendingPreview | src/components/HighlightsSection.tsx:136 | a trending preview of k rows is the prefix of length min(k, M) of the merged list |
| Highlights.TopGainers | src/components/HighlightsSection.tsx:175-177 | the gainers list holds min(k, n) rows taken from the catalog |
| Highlights.TopLosers | src/components/HighlightsSection.tsx:216-218 | the losers list holds min(k, n) rows taken from the catalog |
| Highlights.GainersConsistent | src/components/HighlightsSection.tsx:176 | the gainers comparator is consistent once every coin carries the 24h change |
| Highlights.LosersConsistent | src/components/HighlightsSection.tsx:217 | the losers comparator is consistent once every coin carries the 24h change |
| Highlights.TopOfSorted | src/components/HighlightsSection.tsx:400-405 | the first rows of a list ordered by a change-ranking comparator are ordered by change and outrank every later row |
| Highlights.TopGainersAreTop | src/components/HighlightsSection.tsx:196-198 | the gainers are in non-increasing order of 24h change, and no coin left out has a larger change than a coin shown |
| Highlights.TopLosersAreBottom | src/components/HighlightsSection.tsx:237-239 | the losers are in non-decreasing order of 24h change, and no coin left out has a smaller change than a coin shown |
| Highlights.RankCell | src/components/HighlightsSection.tsx:524 | the rank cell shows the market-cap rank when present and the 1-based position otherwise |
| Highlights.ChangeCell | src/components/HighlightsSection.tsx:535 | the change cell shows the change with two decimals, or "0" when it is missing or null, followed by % |
| Highlights.MoneyCell | src/components/HighlightsSection.tsx:527 | the dollar sign is always shown; the value follows in locale format exactly when it is a number, so a missing or null value leaves a bare "$" |
| Highlights.MissingChangeColour | src/components/HighlightsSection.tsx:528-535 | a null change is coloured as a gain and an absent one as a loss, both showing "0"; a number is a gain iff it is ≥ 0 |
| Highlights.UnmatchedTrendingRow | src/components/HighlightsSection.tsx:522-537 | a trending row without a catalog match is ranked by position, shows a "0" change coloured as a loss, and shows bare "$" for price and market cap |
| Highlights.ViewMore | src/components/HighlightsSection.tsx:53-57 | "view more" shows the dialog with the given title and rows |
| Highlights.CloseDialog | src/components/HighlightsSection.tsx:505 | closing hides the dialog and keeps its title and rows |
| Highlights.OpenList | src/components/HighlightsSection.tsx:153-160 | a "view more" link shows the dialog under the list's title, holding the first 25 rows of the list (50 from a highlight card), fewer when the list is shorter; for trending these are the merged rows in feed order |
| Highlights.PreviewLeadsDialog | src/components/HighlightsSection.tsx:136-158 | the dialog starts hidden. The 3 rows of a preview (20 of a card) are the first rows of the dialog its link opens, for trending, gainers and losers alike. |
| CoinGeckoHook.RequestSort | src/hooks/useCoinGecko.ts:69-79 | the requested key is selected; the direction is descending iff that key was already sorted ascending |
| CoinGeckoHook.RequestSortCycles | src/hooks/useCoinGecko.ts:69-79 | repeated requests for one key alternate ascending and descending |
| CoinGeckoHook.KeyCompare | src/hooks/useCoinGecko.ts:55-63 | the comparator yields only -1, 0 or 1. Ascending, it is negative iff a's value is `<` b's and positive iff b's is `<` a's; descending swaps the two. It is 0 exactly when neither value is `<` the other. |
| CoinGeckoHook.LessAsymmetric | src/hooks/useCoinGecko.ts:56-59 | the `<` of two key values never holds both ways |
| CoinGeckoHook.NotGreaterTransitive | src/hooks/useCoinGecko.ts:56-62 | on comparable values of one kind, "not greater than" chains transitively |
| CoinGeckoHook.NotLessTransitive | src/hooks/useCoinGecko.ts:56-62 | on comparable values of one kind, "not less than" chains transitively |
| CoinGeckoHook.HookComparatorConsistent | src/hooks/useCoinGecko.ts:55-63 | when no number under the key is absent, the comparator is consistent in both directions |
| CoinGeckoHook.FilteredAndSorted | src/hooks/useCoinGecko.ts:41-67 | the visible list draws on the catalog without duplication, and every row of it matches the term |
| CoinGeckoHook.FilteredAndSortedSpec | src/hooks/useCoinGecko.ts:41-67 | the list is a permutation of the filtered catalog and contains every matching coin. For comparable values it is ordered by the key in the chosen direction. |
| CoinGeckoHook.UnsortedKeepsCatalogOrder | src/hooks/useCoinGecko.ts:54 | with no sort key the list is the filtered catalog in catalog order (the same filter as the highlights section), and with no term the whole catalog |
| CoinGeckoHook.SortKeepsTiesInOrder | src/hooks/useCoinGecko.ts:41-67 | for any search term, the rows tied under the key with a given coin appear in the order the filter left them (catalog order) |
| CoinGeckoHook.BeginLoad | src/hooks/useCoinGecko.ts:23 | starting a fetch sets loading and keeps the lists, the error, the page, the term and the sort |
| CoinGeckoHook.SettleLoad | src/hooks/useCoinGecko.ts:24-35 | loading ends. The error is cleared iff both requests succeed, and then both lists are replaced. Otherwise neither list changes. |
| CoinGeckoHook.FailedLoadMessage | src/hooks/useCoinGecko.ts:31-32 | a failed load reports the failing request's message, or "An error occurred" for a value that is not an Error |
| CoinGeckoHook.SetPage | src/hooks/useCoinGecko.ts:11-39 | setting the current page again changes nothing (no new load). A different page is recorded and starts a new load, keeping the lists and the error until it settles. |
| CoinGeckoHook.SetPageThenSettle | src/hooks/useCoinGecko.ts:20-39 | after a page change settles, loading has ended on the new page: with both requests answered the new lists show without error, and a failed catalog request keeps the old list and sets the error. The initial state is loading page 1. |
| DetailsModal.FormatNumber | src/components/CoinDetailsModal.tsx:52-58 | "N/A" exactly for a non-number or non-finite argument; otherwise the value with two grouped decimals |
| DetailsModal.RankCell | src/components/CoinDetailsModal.tsx:100 | the rank when it is a number, "N/A" when missing or null |
| DetailsModal.MoneyCell | src/components/CoinDetailsModal.tsx:105-107 | "N/A" exactly when the value is falsy (missing, null or 0); otherwise the value in dollars |
| DetailsModal.SupplyCell | src/components/CoinDetailsModal.tsx:141-143 | "N/A" exactly when the supply is falsy; otherwise the value without a dollar sign |
| DetailsModal.ChangeText | src/components/CoinDetailsModal.tsx:119-121 | the change is shown with two decimals and % exactly when it is a number, "N/A" otherwise |
| DetailsModal.StatsOf | src/components/CoinDetailsModal.tsx:99-144 | The rank is "N/A" exactly when missing or null. Price, market cap and volume are "N/A" exactly when falsy, and otherwise dollars with grouped two decimals. Supply follows the same rule without the dollar sign. The change is "N/A" exactly when it is not a number, and otherwise two decimals with %. It is coloured as a gain iff it is missing, null or at least 0. |
| DetailsModal.NoMarketDataPlaceholders | src/components/CoinDetailsModal.tsx:103-144 | without `market_data` every statistic but the rank is "N/A", and the change is still coloured as a gain |
| DetailsModal.MissingChangeColourDiffers | src/components/CoinDetailsModal.tsx:114 | an absent change is coloured as a gain here but as a loss in the highlights dialog; a null is a gain in both |
| DetailsModal.TooltipCell | src/components/CoinDetailsModal.tsx:162-163 | the chart tooltip shows a sample in dollars with two decimals |
| DetailsModal.SparklineSource | src/components/CoinDetailsModal.tsx:61-64 | the `market_data` series of the detail record wins whenever present (even empty), then the detail record's top-level `sparkline_in_7d`, then none |
| DetailsModal.SparklineData | src/components/CoinDetailsModal.tsx:66-69 | one point per sample of the chosen series, numbered from 1, values in order |
| DetailsModal.EmptyFirstSeriesHidesChart | src/components/CoinDetailsModal.tsx:61-69 | a present but empty `market_data` series hides the chart even when the detail record's top-level `sparkline_in_7d` has samples |
| DetailsModal.Excerpt | src/components/CoinDetailsModal.tsx:197 | the excerpt always ends with a period |
| DetailsModal.ExcerptIsLeadingSentences | src/components/CoinDetailsModal.tsx:197 | The split has more than two pieces iff the text contains a second ". ". Then the excerpt is the text up to that second ". " plus ".": the first two pieces, neither containing ". ", rejoined. Otherwise it is the whole text plus ".". |
| DetailsModal.DescriptionBlock | src/components/CoinDetailsModal.tsx:191-197 | the description block appears exactly for a non-empty English description, holding its excerpt |
| DetailsModal.Effect | src/components/CoinDetailsModal.tsx:25-50 | hiding clears details, error and loading. Showing a coin requests its id, sets loading and clears the error. Showing without a coin changes nothing. |
| DetailsModal.Resolve | src/components/CoinDetailsModal.tsx:38-45 | loading ends; success stores the details; failure stores the message or "Failed to fetch details" and keeps the details |
| DetailsModal.HiddenShowsNothing | src/components/CoinDetailsModal.tsx:27-31 | a hidden dialog renders no spinner, alert or details |
| DetailsModal.PendingShowsSpinnerOnly | src/components/CoinDetailsModal.tsx:85-94 | while a request is pending only the spinner renders |
| DetailsModal.OpenThenSettle | src/components/CoinDetailsModal.tsx:34-45 | open and success render exactly the new details. A failure renders the alert for a non-empty message, plus any details an earlier request left. |
| App.AccumulateSpec | src/App.tsx:24-41 | the page fold succeeds iff every page does, and then yields the pages concatenated in request order, with as many rows as they hold |
| App.AccumulateStops | src/App.tsx:24-46 | once a page fails, the whole load fails |
| App.FetchCoins | src/App.tsx:17-47 | pages are requested from 1 upwards with 250 per page and stop at the first failure. The state is the fold's result applied. |
| App.ApplyCatalog | src/App.tsx:41-46 | loading ends; success publishes the catalog; failure sets "Failed to fetch coin data." and keeps the previous catalog |
| App.ApplyTrending | src/App.tsx:49-58 | success replaces only the trending list; failure changes nothing |
| App.LoadsCommute | src/App.tsx:60-61 | the two loads give the same state in either settling order, and a trending failure never raises the catalog error |
| App.TableView | src/App.tsx:84-92 | the table is rendered iff loading has ended, with the catalog and 25 rows per page |
| App.StartupOutcome | src/App.tsx:16-47 | from start-up, every page arriving shows the table of all pages without error. A failing page shows the error and an empty table. |

## Left out

- Network access (the axios and repository calls, query parameters other than `page` and `per_page`, logging) is left out. Its results enter as `Outcome` parameters.
- Timing is left out: the 500 ms debounce of the search term, and the interleaving of late responses after the dialog closes. The debounced term is a plain input, and each request's settlement is applied as one step.
- `Promise.all` is reduced to its settlement: which rejection came first is a parameter.
- Digit rendering (`toFixed`, `toLocaleString`, `Intl.NumberFormat`, `toString`) is recorded, not interpreted: a cell keeps the number and the routine. The real division inside the magnitude formatter is exact here.
- Case mapping covers ASCII letters only. Full Unicode `toLowerCase` and `toUpperCase` (the dialog title) are not modelled.
- String `<` compares characters (Unicode scalar values), not UTF-16 code units. The two orders differ only for characters outside the Basic Multilingual Plane.
- Markup is left out: React, react-bootstrap and Recharts, the chart component, the view tabs, and the random dummy chart data.
- The categories fetch of the highlights section is fire-and-forget I/O and is left out.
- The description is treated as text. Its HTML interpretation is not modelled.
- A gainers or losers card calls `toFixed` on the 24h change without a guard, which throws when the change is null or missing. Those card cells are markup and are not modelled.
- `CoinsTable.TotalPages`: requires a positive page size. The only caller passes 25. With a zero size, `Math.ceil(n / 0)` is `Infinity` for a non-empty list, and the page-item loop would then never end. It is `NaN` for an empty list. Both are JavaScript numbers that this model's `nat` result cannot hold.
- `CoinGeckoHook.SortKeepsTiesInOrder`: the hook sorts `filtered` in place. With an empty term that array is the `coins` state itself, so after the first sort, ties keep the previous sort's order rather than the catalog's. The model sorts a copy of the filtered catalog. The lemma also requires the key's values to be comparable (no absent number), for the same reason as `CoinGeckoHook.FilteredAndSortedSpec`.
- `ArrayOps.SortIsSorted`: ordering is proved only for a comparator consistent on the input. With absent values (NaN differences) ECMA-262 leaves the order implementation-defined. Permutation holds regardless.
- `Highlights.TopGainersAreTop`: ordering is stated for catalogs where every coin carries the 24h change. An absent change makes the comparator inconsistent and the order implementation-defined.
- `Highlights.TopLosersAreBottom`: same restriction as the gainers.
- `CoinGeckoHook.FilteredAndSortedSpec`: ordering is stated only when no number under the key is absent, for the same reason.
- Trending items are modelled with the keys their declared type names. Any other key a live feed item carries would survive the spread into a merged row; such keys are not modelled.
- `src/repositories/CoinGeckoRepository.ts`, `src/components/SearchAndSort.tsx` and `src/components/common/ErrorMessage.tsx` are presentation or I/O and are not part of this model.

## Notes on the code

- The table resets a newly chosen column to descending. The hook resets a newly chosen key to ascending. Both are modelled as written.
- The table's Next with no pages moves to page 0, which shows no rows. Prev then returns to page 1.
- The Pagination control's Next is enabled on page 1 with no pages and asks for page 2: the control does not clamp.
- The highlights section computes a filtered list from its own search box but does not render it. The filter is modelled, in `Search`, because the hook uses the same predicate.
- The two details panes treat an absent 24h change differently:
  - the details dialog computes `(x ?? 0) >= 0`, so absent means a gain;
  - the highlights dialog computes `x >= 0`, so absent means a loss.
- A failed details request after an earlier successful one leaves the earlier details on screen beside the alert. Opening the dialog does not clear them.
- An `Error` with an empty message sets the dialog's error, but no alert renders.
- The hook's fallback message "An error occurred" is unreachable in this program: every repository method catches a failure and rethrows it as an `Error`. The model keeps the fallback as written.

=== FILE: app.dfy ===
/**
 * The application shell: the catalog loaded page by page, the trending feed
 * loaded beside it with its failure kept to itself, and the choice between
 * the spinner and the table.
 */
module App {
  import opened Js
  import opened ArrayOps
  import opened CoinTypes

  const PerPage: nat := 250
  const PageCount: nat := 2
  /** The page size the app passes to the table; the table's own default is also 25. */
  const TablePageSize: nat := 25
  const CatalogError := "Failed to fetch coin data."

  /** One request for a page of the market listing (the other query parameters are fixed). */
  datatype MarketsRequest = MarketsRequest(page: nat, perPage: nat)

  /** What the provider answers for each page number. */
  type Responses = nat -> Outcome<seq<Coin>>

  datatype AppState = AppState(coins: seq<Coin>, trending: seq<TrendingCoin>, loading: bool, error: Option<string>)

  const InitialApp := AppState([], [], true, None)

  // ---------------------------------------------------------------------------
  // the catalog fold

  /** The pages `1..n` folded in order: their concatenation, or the first failure. */
  function Accumulate(responses: Responses, n: nat): (r: Outcome<seq<Coin>>)
    decreases n
  {
    if n == 0 then Ok([])
    else match Accumulate(responses, n - 1)
      case Failed(e) => Failed(e)
      case Ok(prev) =>
        match responses(n)
        case Ok(page) => Ok(prev + page)
        case Failed(e) => Failed(e)
  }

  /** The results of pages `1..n`, in page order, assuming each succeeded. */
  function PageValues(responses: Responses, n: nat): (r: seq<seq<Coin>>)
    ensures |r| == n
    ensures forall i :: 0 <= i < n && responses(i + 1).Ok? ==> r[i] == responses(i + 1).value
  {
    if n == 0 then []
    else PageValues(responses, n - 1) + [if responses(n).Ok? then responses(n).value else []]
  }

  /** Pages `1..n` all succeeded. */
  predicate AllPagesOk(responses: Responses, n: nat) {
    forall p :: 1 <= p <= n ==> responses(p).Ok?
  }

  /**
   * The fold succeeds exactly when every page does, and then yields the
   * pages concatenated in request order, as many rows as the pages hold.
   */
  lemma AccumulateSpec(responses: Responses, n: nat)
    ensures Accumulate(responses, n).Ok? <==> AllPagesOk(responses, n)
    ensures Accumulate(responses, n).Ok? ==>
      Accumulate(responses, n).value == Concat(PageValues(responses, n))
      && |Accumulate(responses, n).value| == TotalLength(PageValues(responses, n))
  {
    AccumulateOkIff(responses, n);
    if AllPagesOk(responses, n) {
      AccumulateValue(responses, n);
    }
  }

  /** The fold succeeds exactly when every page does. */
  lemma {:induction false} AccumulateOkIff(responses: Responses, n: nat)
    ensures Accumulate(responses, n).Ok? <==> AllPagesOk(responses, n)
  {
    if n > 0 {
      AccumulateOkIff(responses, n - 1);
      if !AllPagesOk(responses, n - 1) {
        var p :| 1 <= p <= n - 1 && !responses(p).Ok?;
        assert !AllPagesOk(responses, n);
      }
    }
  }

  /** When every page succeeds, the fold is the concatenation of the pages in order. */
  lemma {:induction false} AccumulateValue(responses: Responses, n: nat)
    requires AllPagesOk(responses, n)
    ensures Accumulate(responses, n) == Ok(Concat(PageValues(responses, n)))
  {
    if n > 0 {
      assert AllPagesOk(responses, n - 1);
      AccumulateValue(responses, n - 1);
      assert responses(n).Ok?;
      PageValuesLast(responses, n);
      ConcatLast(PageValues(responses, n - 1), responses(n).value);
    }
  }

  /** The first `n` results are the first `n - 1` followed by page `n`'s. */
  lemma PageValuesLast(responses: Responses, n: nat)
    requires n > 0 && responses(n).Ok?
    ensures PageValues(responses, n) == PageValues(responses, n - 1) + [responses(n).value]
  {
  }

  /** Concatenating one more page appends its rows. */
  lemma ConcatLast(pages: seq<seq<Coin>>, last: seq<Coin>)
    ensures Concat(pages + [last]) == Concat(pages) + last
  {
    assert (pages + [last])[..|pages|] == pages;
  }

  // ---------------------------------------------------------------------------
  // fetchCoins

  /** The state update once the catalog fold settles: the catalog on success, the fixed error otherwise. */
  function ApplyCatalog(st: AppState, outcome: Outcome<seq<Coin>>): (r: AppState)
    ensures !r.loading && r.trending == st.trending
    ensures outcome.Ok? ==> r.coins == outcome.value && r.error == st.error
    ensures outcome.Failed? ==> r.coins == st.coins && r.error == Some(CatalogError)
  {
    match outcome
    case Ok(all) => st.(coins := all, loading := false)
    case Failed(_) => st.(error := Some(CatalogError), loading := false)
  }

  /**
   * `fetchCoins`: request pages 1 to `PageCount` one after another, stop at
   * the first failure, and publish the concatenation only if every page
   * arrived.
   */
  method FetchCoins(st: AppState, responses: Responses) returns (r: AppState, requested: seq<MarketsRequest>)
    ensures r == ApplyCatalog(st, Accumulate(responses, PageCount))
    ensures |requested| >= 1
    ensures forall i :: 0 <= i < |requested| ==> requested[i] == MarketsRequest(i + 1, PerPage)
    ensures forall p :: 1 <= p < |requested| ==> responses(p).Ok?
    ensures |requested| < PageCount ==> responses(|requested|).Failed?
    ensures |requested| <= PageCount
  {
    var loading := st.(loading := true);
    var all: seq<Coin> := [];
    requested := [];
    var page := 1;
    while page <= PageCount
      invariant 1 <= page <= PageCount + 1
      invariant |requested| == page - 1
      invariant forall i :: 0 <= i < |requested| ==> requested[i] == MarketsRequest(i + 1, PerPage)
      invariant Accumulate(responses, page - 1) == Ok(all)
    {
      requested := requested + [MarketsRequest(page, PerPage)];
      var response := responses(page);
      if response.Failed? {
        r := ApplyCatalog(loading, Failed(response.reason));
        AccumulateStops(responses, page, PageCount);
        return;
      }
      all := all + response.value;
      page := page + 1;
    }
    r := ApplyCatalog(loading, Ok(all));
  }

  /** Once page `k` fails, the fold over any longer run of pages fails too. */
  lemma {:induction false} AccumulateStops(responses: Responses, k: nat, n: nat)
    requires 1 <= k <= n
    requires Accumulate(responses, k - 1).Ok? && responses(k).Failed?
    ensures Accumulate(responses, n).Failed?
    decreases n
  {
    if n > k {
      AccumulateStops(responses, k, n - 1);
    }
  }

  // ---------------------------------------------------------------------------
  // fetchTrending

  /** `fetchTrending`: the feed replaces the trending list on success; a failure is only logged. */
  function ApplyTrending(st: AppState, outcome: Outcome<seq<TrendingCoin>>): (r: AppState)
    ensures r.coins == st.coins && r.loading == st.loading && r.error == st.error
    ensures outcome.Ok? ==> r.trending == outcome.value
    ensures outcome.Failed? ==> r == st
  {
    match outcome
    case Ok(feed) => st.(trending := feed)
    case Failed(_) => st
  }

  /**
   * The two loads are independent: whichever settles first, the final state
   * is the same, and a trending failure never shows the catalog error.
   */
  lemma LoadsCommute(st: AppState, catalog: Outcome<seq<Coin>>, feed: Outcome<seq<TrendingCoin>>)
    ensures ApplyTrending(ApplyCatalog(st, catalog), feed) == ApplyCatalog(ApplyTrending(st, feed), catalog)
    ensures catalog.Ok? && st.error.None? ==> ApplyTrending(ApplyCatalog(st, catalog), feed).error.None?
  {
  }

  // ---------------------------------------------------------------------------
  // rendering

  /** The table view: the catalog with 25 rows per page, only once loading has ended. */
  datatype TableProps = TableProps(coins: seq<Coin>, pageSize: nat)

  function TableView(st: AppState): (r: Option<TableProps>)
    ensures r.Some? <==> !st.loading
    ensures r.Some? ==> r.value.coins == st.coins && r.value.pageSize == TablePageSize
  {
    if st.loading then None else Some(TableProps(st.coins, TablePageSize))
  }

  /** The error banner is rendered for a non-empty error. */
  predicate ErrorShown(st: AppState) {
    st.error.Some? && st.error.value != ""
  }

  /**
   * From the initial state, a run where every page arrives shows the table
   * of all pages and no error; a run with a failing page shows the error
   * and an empty table.
   */
  lemma StartupOutcome(responses: Responses, feed: Outcome<seq<TrendingCoin>>)
    ensures var r := ApplyTrending(ApplyCatalog(InitialApp, Accumulate(responses, PageCount)), feed);
      && TableView(r).Some?
      && (AllPagesOk(responses, PageCount) ==>
            !ErrorShown(r) && r.coins == Concat(PageValues(responses, PageCount)))
      && (!AllPagesOk(responses, PageCount) ==> ErrorShown(r) && r.coins == [])
  {
    AccumulateSpec(responses, PageCount);
  }
}

=== FILE: array_ops.dfy ===
/**
 * Models of the `Array.prototype` operations the view code relies on:
 * `filter`, `slice`, a stable `sort` driven by a comparator, and the spread
 * concatenation `[...a, ...b]`.
 */
module ArrayOps {
  import opened Js

  // ---------------------------------------------------------------------------
  // filter

  /** `s.filter(p)`: the elements satisfying `p`, in their original order. */
  function Filter<T>(s: seq<T>, p: T -> bool): (r: seq<T>)
    ensures |r| <= |s|
    ensures forall x :: x in r ==> x in s && p(x)
    ensures forall i :: 0 <= i < |s| && p(s[i]) ==> s[i] in r
    ensures multiset(r) <= multiset(s)
  {
    if |s| == 0 then []
    else
      var rest := Filter(s[1..], p);
      assert s == [s[0]] + s[1..];
      if p(s[0]) then [s[0]] + rest else rest
  }

  /** `r` can be obtained from `s` by deleting elements, without reordering. */
  ghost predicate IsSubsequence<T>(r: seq<T>, s: seq<T>)
    decreases |s|
  {
    if |r| == 0 then true
    else if |s| == 0 then false
    else (r[0] == s[0] && IsSubsequence(r[1..], s[1..])) || IsSubsequence(r, s[1..])
  }

  /** Filtering keeps the relative order of the kept elements. */
  lemma {:induction false} FilterIsSubsequence<T>(s: seq<T>, p: T -> bool)
    ensures IsSubsequence(Filter(s, p), s)
    decreases |s|
  {
    if |s| > 0 {
      FilterIsSubsequence(s[1..], p);
      var rest := Filter(s[1..], p);
      if p(s[0]) {
        assert Filter(s, p) == [s[0]] + rest;
        assert Filter(s, p)[1..] == rest;
      } else {
        assert Filter(s, p) == rest;
        if |rest| > 0 {
          assert IsSubsequence(rest, s[1..]);
        }
      }
    }
  }

  /** A predicate that holds of every element filters nothing out. */
  lemma {:induction false} FilterKeepsAll<T>(s: seq<T>, p: T -> bool)
    requires forall i :: 0 <= i < |s| ==> p(s[i])
    ensures Filter(s, p) == s
    decreases |s|
  {
    if |s| > 0 {
      var tail := s[1..];
      assert forall i :: 0 <= i < |tail| ==> tail[i] == s[i + 1];
      FilterKeepsAll(tail, p);
      assert s == [s[0]] + tail;
    }
  }

  /** Filtering distributes over concatenation. */
  lemma {:induction false} FilterAppend<T>(a: seq<T>, b: seq<T>, p: T -> bool)
    ensures Filter(a + b, p) == Filter(a, p) + Filter(b, p)
    decreases |a|
  {
    if |a| == 0 {
      assert a + b == b;
    } else {
      assert (a + b)[1..] == a[1..] + b;
      assert (a + b)[0] == a[0];
      FilterAppend(a[1..], b, p);
    }
  }

  // ---------------------------------------------------------------------------
  // slice

  /** How `slice` resolves a relative index against a length (section 23.1.3.28 of ECMA-262). */
  function RelativeIndex(k: int, len: nat): (r: nat)
    ensures r <= len
    ensures 0 <= k ==> r == Min(k, len)
    ensures k < 0 ==> r == Max(len + k, 0)
  {
    if k < 0 then (if len + k < 0 then 0 else len + k)
    else if k < len then k
    else len
  }

  /** `s.slice(start, end)`, including its treatment of negative and out-of-range indices. */
  function Slice<T>(s: seq<T>, start: int, end: int): (r: seq<T>)
    ensures |r| <= |s|
  {
    var from := RelativeIndex(start, |s|);
    var to := RelativeIndex(end, |s|);
    if from < to then s[from..to] else []
  }

  /** For a non-negative start, a slice is the window of indices `[start, min(end, |s|))`. */
  lemma SliceWindow<T>(s: seq<T>, start: int, end: int)
    requires 0 <= start && 0 <= end
    ensures |Slice(s, start, end)| == Max(0, Min(end, |s|) - start)
    ensures forall i :: 0 <= i < |Slice(s, start, end)| ==> Slice(s, start, end)[i] == s[start + i]
  {
  }

  /** `s.slice(0, k)` is the prefix of length `min(k, |s|)`. */
  lemma SlicePrefix<T>(s: seq<T>, k: nat)
    ensures Slice(s, 0, k) == s[..Min(k, |s|)]
  {
  }

  // ---------------------------------------------------------------------------
  // concatenation

  /** `[...pages[0], ...pages[1], ...]`. */
  function Concat<T>(pages: seq<seq<T>>): (r: seq<T>)
    ensures |r| == TotalLength(pages)
  {
    if |pages| == 0 then [] else Concat(pages[..|pages| - 1]) + pages[|pages| - 1]
  }

  /** The sum of the lengths of `pages`. */
  function TotalLength<T>(pages: seq<seq<T>>): nat {
    if |pages| == 0 then 0 else TotalLength(pages[..|pages| - 1]) + |pages[|pages| - 1]|
  }

  // ---------------------------------------------------------------------------
  // sort

  /**
   * A comparator in the sense of `Array.prototype.sort`: a negative result
   * puts `a` first, a positive one puts `b` first, zero keeps them in input
   * order. Callers map a NaN result to zero, as the sort's SortCompare does.
   */
  type Comparator<!T> = (T, T) -> real

  /**
   * The comparator is consistent on the elements of `s` (section 23.1.3.30 of
   * ECMA-262): its sign is antisymmetric and "not after" is transitive. Only
   * for such a comparator does the standard fix the sorted order.
   */
  ghost predicate Consistent<T>(cmp: Comparator<T>, s: seq<T>) {
    && (forall a, b :: a in s && b in s ==> (cmp(a, b) < 0.0 <==> cmp(b, a) > 0.0))
    && (forall a, b, c :: a in s && b in s && c in s && cmp(a, b) <= 0.0 && cmp(b, c) <= 0.0 ==> cmp(a, c) <= 0.0)
  }

  /** No element is placed after a later one. */
  ghost predicate SortedBy<T>(cmp: Comparator<T>, s: seq<T>) {
    forall i, j :: 0 <= i < j < |s| ==> cmp(s[i], s[j]) <= 0.0
  }

  /**
   * `inClass` picks out exactly one equivalence class of the comparator among
   * the elements of `s` (or none of them).
   */
  ghost predicate IsClass<T>(cmp: Comparator<T>, s: seq<T>, inClass: T -> bool) {
    forall a, b :: a in s && b in s && inClass(a) ==> (inClass(b) <==> cmp(a, b) == 0.0)
  }

  /** Inserts `x` in front of the first element it need not follow. */
  function Insert<T>(x: T, s: seq<T>, cmp: Comparator<T>): (r: seq<T>)
    ensures |r| == |s| + 1
    ensures multiset(r) == multiset(s) + multiset{x}
  {
    if |s| == 0 then [x]
    else if cmp(x, s[0]) > 0.0 then
      assert s == [s[0]] + s[1..];
      [s[0]] + Insert(x, s[1..], cmp)
    else [x] + s
  }

  /**
   * A stable sort, as `Array.prototype.sort` has been required to be since
   * ECMA-262 2019: insertion sort from the back, an element going in front of
   * every element that does not strictly precede it.
   */
  function Sort<T>(s: seq<T>, cmp: Comparator<T>): (r: seq<T>)
    ensures |r| == |s|
    ensures multiset(r) == multiset(s)
  {
    if |s| == 0 then []
    else
      assert s == [s[0]] + s[1..];
      Insert(s[0], Sort(s[1..], cmp), cmp)
  }

  /** Consistency on a sequence carries over to any sequence of its elements. */
  lemma ConsistentOnSubset<T>(cmp: Comparator<T>, s: seq<T>, t: seq<T>)
    requires Consistent(cmp, s)
    requires forall e :: e in t ==> e in s
    ensures Consistent(cmp, t)
  {
  }

  /** Prepending an element that need not follow any element keeps a sequence ordered. */
  lemma PrependSorted<T>(a: T, s: seq<T>, cmp: Comparator<T>)
    requires SortedBy(cmp, s)
    requires forall i :: 0 <= i < |s| ==> cmp(a, s[i]) <= 0.0
    ensures SortedBy(cmp, [a] + s)
  {
    var r := [a] + s;
    forall i, j | 0 <= i < j < |r| ensures cmp(r[i], r[j]) <= 0.0 {
      if i == 0 {
        assert r[j] == s[j - 1];
      } else {
        assert r[i] == s[i - 1] && r[j] == s[j - 1];
      }
    }
  }

  /** An element that need not follow `x` nor any element of `s` need not follow any element of `Insert(x, s)`. */
  lemma {:induction false} InsertBounded<T>(x: T, s: seq<T>, cmp: Comparator<T>, a: T)
    requires cmp(a, x) <= 0.0
    requires forall i :: 0 <= i < |s| ==> cmp(a, s[i]) <= 0.0
    ensures forall i :: 0 <= i < |Insert(x, s, cmp)| ==> cmp(a, Insert(x, s, cmp)[i]) <= 0.0
    decreases |s|
  {
    if |s| > 0 && cmp(x, s[0]) > 0.0 {
      var tail := s[1..];
      assert forall i :: 0 <= i < |tail| ==> tail[i] == s[i + 1];
      InsertBounded(x, tail, cmp, a);
      var r := Insert(x, s, cmp);
      assert r == [s[0]] + Insert(x, tail, cmp);
      forall i | 0 <= i < |r| ensures cmp(a, r[i]) <= 0.0 {
        if i > 0 {
          assert r[i] == Insert(x, tail, cmp)[i - 1];
        }
      }
    }
  }

  lemma {:induction false} InsertSorted<T>(x: T, s: seq<T>, cmp: Comparator<T>)
    requires Consistent(cmp, [x] + s)
    requires SortedBy(cmp, s)
    ensures SortedBy(cmp, Insert(x, s, cmp))
    decreases |s|
  {
    if |s| == 0 {
    } else if cmp(x, s[0]) > 0.0 {
      var tail := s[1..];
      assert s[0] in [x] + s && x in [x] + s;
      assert cmp(s[0], x) < 0.0;
      ConsistentOnSubset(cmp, [x] + s, [x] + tail);
      assert SortedBy(cmp, tail) by {
        forall i, j | 0 <= i < j < |tail| ensures cmp(tail[i], tail[j]) <= 0.0 {
          assert tail[i] == s[i + 1] && tail[j] == s[j + 1];
        }
      }
      InsertSorted(x, tail, cmp);
      assert forall i :: 0 <= i < |tail| ==> cmp(s[0], tail[i]) <= 0.0 by {
        forall i | 0 <= i < |tail| ensures cmp(s[0], tail[i]) <= 0.0 {
          assert tail[i] == s[i + 1];
        }
      }
      InsertBounded(x, tail, cmp, s[0]);
      PrependSorted(s[0], Insert(x, tail, cmp), cmp);
    } else {
      forall i | 0 <= i < |s| ensures cmp(x, s[i]) <= 0.0 {
        if i > 0 {
          assert x in [x] + s && s[0] in [x] + s && s[i] in [x] + s;
        }
      }
      PrependSorted(x, s, cmp);
    }
  }

  /** With a consistent comparator the sort's output is ordered. */
  lemma {:induction false} SortIsSorted<T>(s: seq<T>, cmp: Comparator<T>)
    requires Consistent(cmp, s)
    ensures SortedBy(cmp, Sort(s, cmp))
    decreases |s|
  {
    if |s| > 0 {
      var tail := s[1..];
      ConsistentOnSubset(cmp, s, tail);
      SortIsSorted(tail, cmp);
      var t := Sort(tail, cmp);
      forall e | e in [s[0]] + t ensures e in s {
        if e != s[0] {
          assert e in multiset(t);
          assert e in multiset(tail);
        }
      }
      ConsistentOnSubset(cmp, s, [s[0]] + t);
      InsertSorted(s[0], t, cmp);
    }
  }

  /** A class predicate on a sequence is one on any sequence of its elements. */
  lemma IsClassOnSubset<T>(cmp: Comparator<T>, s: seq<T>, t: seq<T>, inClass: T -> bool)
    requires IsClass(cmp, s, inClass)
    requires forall e :: e in t ==> e in s
    ensures IsClass(cmp, t, inClass)
  {
  }

  lemma FilterSingleton<T>(a: T, p: T -> bool)
    ensures Filter([a], p) == if p(a) then [a] else []
  {
    assert [a][1..] == [];
  }

  /** An element moved past one of another class leaves the class's subsequence alone. */
  lemma SwapPastOtherClass<T>(x: T, y: T, s: seq<T>, inClass: T -> bool)
    requires inClass(x) ==> !inClass(y)
    ensures Filter([y], inClass) + (Filter([x], inClass) + Filter(s, inClass))
         == Filter([x], inClass) + (Filter([y], inClass) + Filter(s, inClass))
  {
    FilterSingleton(x, inClass);
    FilterSingleton(y, inClass);
    SwapEmpty(Filter([x], inClass), Filter([y], inClass), Filter(s, inClass));
  }

  /** Two prefixes, one of them empty, can be put in front in either order. */
  lemma SwapEmpty<T>(a: seq<T>, b: seq<T>, rest: seq<T>)
    requires a == [] || b == []
    ensures b + (a + rest) == a + (b + rest)
  {
    if a == [] {
      assert b + (a + rest) == b + rest;
    } else {
      assert a + (b + rest) == a + rest;
    }
  }

  lemma {:induction false} InsertStable<T>(x: T, s: seq<T>, cmp: Comparator<T>, inClass: T -> bool)
    requires IsClass(cmp, [x] + s, inClass)
    ensures Filter(Insert(x, s, cmp), inClass) == Filter([x], inClass) + Filter(s, inClass)
    decreases |s|
  {
    if |s| == 0 {
      assert [x] + s == [x];
    } else if cmp(x, s[0]) > 0.0 {
      var tail := s[1..];
      assert s == [s[0]] + tail;
      IsClassOnSubset(cmp, [x] + s, [x] + tail, inClass);
      InsertStable(x, tail, cmp, inClass);
      var rt := Insert(x, tail, cmp);
      assert Insert(x, s, cmp) == [s[0]] + rt;
      FilterAppend([s[0]], rt, inClass);
      FilterAppend([s[0]], tail, inClass);
      assert x in [x] + s && s[0] in [x] + s;
      SwapPastOtherClass(x, s[0], tail, inClass);
    } else {
      assert Insert(x, s, cmp) == [x] + s;
      FilterAppend([x], s, inClass);
    }
  }

  /**
   * Stability: the elements of one equivalence class of the comparator come
   * out in the order they went in.
   */
  lemma {:induction false} SortIsStable<T>(s: seq<T>, cmp: Comparator<T>, inClass: T -> bool)
    requires IsClass(cmp, s, inClass)
    ensures Filter(Sort(s, cmp), inClass) == Filter(s, inClass)
    decreases |s|
  {
    if |s| > 0 {
      var tail := s[1..];
      assert s == [s[0]] + tail;
      IsClassOnSubset(cmp, s, tail, inClass);
      SortIsStable(tail, cmp, inClass);
      var t := Sort(tail, cmp);
      forall e | e in [s[0]] + t ensures e in s {
        if e != s[0] {
          assert e in multiset(t);
          assert e in multiset(tail);
        }
      }
      IsClassOnSubset(cmp, s, [s[0]] + t, inClass);
      InsertStable(s[0], t, cmp, inClass);
      FilterAppend([s[0]], tail, inClass);
    }
  }

  /** In an ordered sequence every element of a prefix need not follow any element after it. */
  lemma PrefixPrecedesRest<T>(s: seq<T>, cmp: Comparator<T>, n: nat)
    requires SortedBy(cmp, s)
    requires n <= |s|
    ensures forall i, y :: 0 <= i < n && y in multiset(s[n..]) ==> cmp(s[i], y) <= 0.0
  {
    forall i, y | 0 <= i < n && y in multiset(s[n..]) ensures cmp(s[i], y) <= 0.0 {
      var j :| 0 <= j < |s[n..]| && s[n..][j] == y;
      assert s[n + j] == y;
    }
  }

  /** Sorting input that is already in order leaves it unchanged. */
  lemma {:induction false} SortOfSorted<T>(s: seq<T>, cmp: Comparator<T>)
    requires SortedBy(cmp, s)
    ensures Sort(s, cmp) == s
    decreases |s|
  {
    if |s| > 0 {
      var tail := s[1..];
      assert SortedBy(cmp, tail) by {
        forall i, j | 0 <= i < j < |tail| ensures cmp(tail[i], tail[j]) <= 0.0 {
          assert tail[i] == s[i + 1] && tail[j] == s[j + 1];
        }
      }
      SortOfSorted(tail, cmp);
      if |tail| > 0 {
        assert cmp(s[0], s[1]) <= 0.0;
      }
      assert s == [s[0]] + tail;
    }
  }

  /** A comparator that never separates two elements leaves the input order alone. */
  lemma SortWithZeroComparator<T>(s: seq<T>, cmp: Comparator<T>)
    requires forall a, b :: cmp(a, b) == 0.0
    ensures Sort(s, cmp) == s
  {
    SortOfSorted(s, cmp);
  }
}

=== FILE: coin.dfy ===
/**
 * The records the dashboard receives from the market-data provider:
 * market rows, trending entries and the per-coin detail record.
 */
module CoinTypes {
  import opened Js

  /**
   * One row of the market listing. Numeric properties are `Field`s because
   * the feed may omit them or send null; `sparkline` is the 7-day price
   * series found under `sparkline_in_7d.price`, `None` when either level is
   * missing.
   */
  datatype Coin = Coin(
    id: string,
    symbol: string,
    name: string,
    image: string,
    currentPrice: Field,
    marketCap: Field,
    marketCapRank: Field,
    change24h: Field,       // price_change_percentage_24h
    priceChange24h: Field,  // price_change_24h
    totalVolume: Field,
    change7d: Field,        // price_change_percentage_7d_in_currency
    sparkline: Option<seq<real>>
  )

  /** The `item` of one trending entry. */
  datatype TrendingItem = TrendingItem(id: string, name: string, symbol: string, thumb: string, priceBtc: Field)

  /** One element of the trending feed's `coins` array. */
  datatype TrendingCoin = TrendingCoin(item: TrendingItem)

  /** The nested `market_data` object of a detail record. */
  datatype MarketData = MarketData(
    currentPriceUsd: Field,  // current_price.usd
    marketCapUsd: Field,     // market_cap.usd
    totalVolumeUsd: Field,   // total_volume.usd
    change24h: Field,        // price_change_percentage_24h
    totalSupply: Field,
    sparkline7d: Option<seq<real>>  // sparkline_7d.price
  )

  /**
   * The detail record for one coin: the market-row fields plus an optional
   * `market_data` object and the English description, `None` when absent.
   */
  datatype CoinDetails = CoinDetails(base: Coin, marketData: Option<MarketData>, description: Option<string>)
}

=== FILE: coin_details_modal.dfy ===
/**
 * The coin details dialog: its load state machine, the placeholder rules of
 * its statistics, the choice of sparkline series, and the description
 * excerpt.
 */
module DetailsModal {
  import opened Js
  import opened Text
  import opened ArrayOps
  import opened CoinTypes
  import opened Sparkline
  import Highlights

  // ---------------------------------------------------------------------------
  // cells

  /** The dialog's `formatNumber`: "N/A" unless the argument is a finite number, else two fixed decimals with grouping. */
  function FormatNumber(num: Option<JsNumber>): (r: Shown)
    ensures r == Text("N/A") <==> num.None? || !num.value.IsFinite()
    ensures r != Text("N/A") ==> r == Grouped2(num.value.v)
  {
    match num
    case Some(Finite(x)) => Grouped2(x)
    case _ => Text("N/A")
  }

  /** The numeric keys the dialog reads from `market_data`. */
  datatype MarketKey = PriceUsd | MarketCapUsd | VolumeUsd | Change | Supply

  /** `market_data?.<key>`: absent when `market_data` itself is. */
  function MarketField(d: CoinDetails, key: MarketKey): Field {
    match d.marketData
    case None => Undefined
    case Some(m) =>
      match key
      case PriceUsd => m.currentPriceUsd
      case MarketCapUsd => m.marketCapUsd
      case VolumeUsd => m.totalVolumeUsd
      case Change => m.change24h
      case Supply => m.totalSupply
  }

  /** `rank ?? "N/A"`. */
  function RankCell(d: CoinDetails): (r: Shown)
    ensures d.base.marketCapRank.Num? ==> r == ToString(Finite(d.base.marketCapRank.v))
    ensures !d.base.marketCapRank.Num? ==> r == Text("N/A")
  {
    match d.base.marketCapRank
    case Num(x) => ToString(Finite(x))
    case _ => Text("N/A")
  }

  /** Price, market cap and volume: a truthy value is shown in dollars, anything else (0 included) as "N/A". */
  function MoneyCell(f: Field): (r: Shown)
    ensures r == Text("N/A") <==> !f.Truthy()
    ensures f.Truthy() ==> r == Dollar(Grouped2(f.v))
  {
    if f.Truthy() then Dollar(FormatNumber(f.AsNumber())) else Text("N/A")
  }

  /** Total supply: the same truthiness test, without the dollar sign. */
  function SupplyCell(f: Field): (r: Shown)
    ensures r == Text("N/A") <==> !f.Truthy()
    ensures f.Truthy() ==> r == Grouped2(f.v)
  {
    if f.Truthy() then FormatNumber(f.AsNumber()) else Text("N/A")
  }

  /** The 24h change text: shown with two decimals only when it is a number. */
  function ChangeText(f: Field): (r: Shown)
    ensures f.Num? <==> r != Text("N/A")
    ensures f.Num? ==> r == Percent(Fixed2(f.v))
  {
    match f.AsNumber()
    case Some(n) => Percent(Fixed2(n.v))
    case None => Text("N/A")
  }

  /** The change is coloured as a gain when `(change ?? 0) >= 0`. */
  predicate ChangeIsGain(f: Field) {
    f.OrElse(0.0) >= 0.0
  }

  /** The statistics column of the dialog. */
  datatype Stats = Stats(rank: Shown, price: Shown, change: Shown, changeIsGain: bool, marketCap: Shown, volume: Shown, supply: Shown)

  /** The dollar rule of the price, market-cap and volume lines: "N/A" for a falsy value, else the value in dollars. */
  predicate DollarRule(cell: Shown, f: Field) {
    (cell == Text("N/A") <==> !f.Truthy()) && (f.Truthy() ==> cell == Dollar(Grouped2(f.v)))
  }

  /**
   * The statistics column: the rank when it is a number; price, market cap
   * and volume by the dollar rule; supply by the same test without the
   * dollar sign; the change text only for a number; and the gain colour
   * exactly when the change is a non-negative number or not a number at all.
   */
  function StatsOf(d: CoinDetails): (r: Stats)
    ensures r.rank == Text("N/A") <==> !d.base.marketCapRank.Num?
    ensures d.base.marketCapRank.Num? ==> r.rank == ToString(Finite(d.base.marketCapRank.v))
    ensures DollarRule(r.price, MarketField(d, PriceUsd))
    ensures DollarRule(r.marketCap, MarketField(d, MarketCapUsd))
    ensures DollarRule(r.volume, MarketField(d, VolumeUsd))
    ensures r.supply == Text("N/A") <==> !MarketField(d, Supply).Truthy()
    ensures MarketField(d, Supply).Truthy() ==> r.supply == Grouped2(MarketField(d, Supply).v)
    ensures r.change == Text("N/A") <==> !MarketField(d, Change).Num?
    ensures MarketField(d, Change).Num? ==> r.change == Percent(Fixed2(MarketField(d, Change).v))
    ensures r.changeIsGain <==> !MarketField(d, Change).Num? || MarketField(d, Change).v >= 0.0
  {
    var change := MarketField(d, Change);
    Stats(RankCell(d), MoneyCell(MarketField(d, PriceUsd)), ChangeText(change), ChangeIsGain(change),
          MoneyCell(MarketField(d, MarketCapUsd)), MoneyCell(MarketField(d, VolumeUsd)),
          SupplyCell(MarketField(d, Supply)))
  }

  /**
   * Without a `market_data` object every statistic but the rank is a
   * placeholder, and the change is still coloured as a gain.
   */
  lemma NoMarketDataPlaceholders(d: CoinDetails)
    requires d.marketData.None?
    ensures var s := StatsOf(d);
      && s.price == Text("N/A") && s.marketCap == Text("N/A") && s.volume == Text("N/A")
      && s.supply == Text("N/A") && s.change == Text("N/A") && s.changeIsGain
  {
  }

  /**
   * An absent change is coloured as a gain here, while the highlights
   * dialog colours the same absence as a loss; a null is a gain in both.
   */
  lemma MissingChangeColourDiffers(row: Highlights.DialogRow)
    requires row.change24h.Undefined?
    ensures ChangeIsGain(row.change24h) && !Highlights.ChangeIsGain(row)
    ensures ChangeIsGain(Null) && Highlights.ChangeIsGain(row.(change24h := Null))
  {
  }

  /** The chart tooltip shows a price sample in dollars. */
  function TooltipCell(value: real): (r: Shown)
    ensures r == Dollar(Grouped2(value))
  {
    Dollar(FormatNumber(Some(Finite(value))))
  }

  // ---------------------------------------------------------------------------
  // sparkline

  /**
   * `market_data?.sparkline_7d?.price || sparkline_in_7d?.price || []`.
   * Arrays are truthy even when empty, so a present but empty first series
   * still wins.
   */
  function SparklineSource(details: Option<CoinDetails>): (r: seq<real>)
    ensures details.Some? && details.value.marketData.Some? && details.value.marketData.value.sparkline7d.Some? ==>
      r == details.value.marketData.value.sparkline7d.value
    ensures (details.Some? && (details.value.marketData.None? || details.value.marketData.value.sparkline7d.None?)
             && details.value.base.sparkline.Some?) ==> r == details.value.base.sparkline.value
    ensures (details.Some? && (details.value.marketData.None? || details.value.marketData.value.sparkline7d.None?)
             && details.value.base.sparkline.None?) ==> r == []
    ensures details.None? ==> r == []
  {
    match details
    case None => []
    case Some(d) =>
      if d.marketData.Some? && d.marketData.value.sparkline7d.Some? then d.marketData.value.sparkline7d.value
      else if d.base.sparkline.Some? then d.base.sparkline.value
      else []
  }

  /** `sparklineData`: the chosen series numbered from 1, or no points for an empty series. */
  function SparklineData(details: Option<CoinDetails>): (r: seq<Point>)
    ensures |r| == |SparklineSource(details)|
    ensures forall i :: 0 <= i < |r| ==> r[i].index == i + 1
    ensures Values(r) == SparklineSource(details)
  {
    var src := SparklineSource(details);
    if |src| > 0 then Points(src, 1) else []
  }

  /** The chart is drawn exactly when the chosen series is non-empty. */
  predicate ChartShown(details: Option<CoinDetails>) {
    |SparklineData(details)| > 0
  }

  /** A present but empty `market_data` series hides the chart even when the top-level `sparkline_in_7d` has samples. */
  lemma EmptyFirstSeriesHidesChart(d: CoinDetails, m: MarketData)
    requires d.marketData == Some(m) && m.sparkline7d == Some([])
    ensures !ChartShown(Some(d))
  {
  }

  // ---------------------------------------------------------------------------
  // description

  const Sentence := ". "

  /** `en.split(". ").slice(0, 2).join(". ") + "."`. */
  function Excerpt(en: string): (r: string)
    ensures |r| >= 1 && r[|r| - 1] == '.'
  {
    Join(Slice(Split(en, Sentence), 0, 2), Sentence) + "."
  }

  /** Where the text's second ". " starts, when it has two. */
  function SecondSentenceEnd(en: string): (r: Option<nat>)
    ensures r.Some? ==> OccursAt(en, Sentence, r.value)
    ensures r.Some? ==> IndexOf(en, Sentence, 0).Some? && IndexOf(en, Sentence, 0).value + |Sentence| <= r.value
  {
    match IndexOf(en, Sentence, 0)
    case None => None
    case Some(i) => IndexOf(en, Sentence, i + |Sentence|)
  }

  /**
   * The excerpt is the text up to its second ". " followed by a period, or the
   * whole text and a period when it has fewer: the first two pieces of the
   * split, neither of which contains ". ", rejoined by it.
   */
  lemma ExcerptIsLeadingSentences(en: string)
    ensures |Split(en, Sentence)| > 2 <==> SecondSentenceEnd(en).Some?
    ensures SecondSentenceEnd(en).None? ==> Excerpt(en) == en + "."
    ensures SecondSentenceEnd(en).Some? ==> Excerpt(en) == en[..SecondSentenceEnd(en).value] + "."
    ensures var parts := Split(en, Sentence);
      |parts| > 2 ==>
        && Excerpt(en) == parts[0] + Sentence + parts[1] + "."
        && !Includes(parts[0], Sentence) && !Includes(parts[1], Sentence)
  {
    var parts := Split(en, Sentence);
    SlicePrefix(parts, 2);
    match IndexOf(en, Sentence, 0)
    case None =>
      SplitNone(en, Sentence);
      assert Slice(parts, 0, 2) == [en];
    case Some(i) =>
      match IndexOf(en, Sentence, i + |Sentence|)
      case None =>
        SplitOnce(en, Sentence, i);
        JoinSplit(en, Sentence);
        assert Slice(parts, 0, 2) == parts;
      case Some(k) =>
        SplitFirstTwo(en, Sentence, i, k);
        SplitPiecesFree(en, Sentence);
        assert parts[..2] == [parts[0], parts[1]];
        assert Join(parts[..2], Sentence) == parts[0] + Sentence + parts[1];
  }

  /** The description block: shown only for a non-empty English description. */
  function DescriptionBlock(d: CoinDetails): (r: Option<string>)
    ensures r.Some? <==> d.description.Some? && d.description.value != ""
    ensures r.Some? ==> r.value == Excerpt(d.description.value)
  {
    match d.description
    case Some(en) => if en != "" then Some(Excerpt(en)) else None
    case None => None
  }

  // ---------------------------------------------------------------------------
  // state

  datatype ModalState = ModalState(details: Option<CoinDetails>, loading: bool, error: Option<string>)

  const InitialModal := ModalState(None, false, None)

  /**
   * The effect run when the coin or the visibility changes: hiding clears
   * everything; showing a coin starts a request for its id, sets loading and
   * clears the error, leaving earlier details in place; showing without a
   * coin does nothing.
   */
  function Effect(st: ModalState, coin: Option<Coin>, show: bool): (r: (ModalState, Option<string>))
    ensures !show ==> r.0 == InitialModal && r.1.None?
    ensures show && coin.Some? ==> r.0 == ModalState(st.details, true, None) && r.1 == Some(coin.value.id)
    ensures show && coin.None? ==> r.0 == st && r.1.None?
  {
    if !show then (ModalState(None, false, None), None)
    else if coin.Some? then (ModalState(st.details, true, None), Some(coin.value.id))
    else (st, None)
  }

  /** The request settles: its details are stored, or its message (with a fallback) becomes the error. Loading ends. */
  function Resolve(st: ModalState, outcome: Outcome<CoinDetails>): (r: ModalState)
    ensures !r.loading
    ensures outcome.Ok? ==> r.details == Some(outcome.value) && r.error == st.error
    ensures outcome.Failed? ==> r.details == st.details && r.error == Some(outcome.reason.MessageOr("Failed to fetch details"))
  {
    match outcome
    case Ok(d) => st.(details := Some(d), loading := false)
    case Failed(reason) => st.(error := Some(reason.MessageOr("Failed to fetch details")), loading := false)
  }

  predicate SpinnerShown(st: ModalState) {
    st.loading
  }

  /** The alert is rendered for a non-empty error message only. */
  predicate AlertShown(st: ModalState) {
    st.error.Some? && st.error.value != ""
  }

  /** The details are rendered once present and no request is pending. */
  predicate DetailsShown(st: ModalState) {
    st.details.Some? && !st.loading
  }

  /** A hidden dialog renders nothing: no spinner, alert or details. */
  lemma HiddenShowsNothing(st: ModalState, coin: Option<Coin>)
    ensures var r := Effect(st, coin, false).0;
      !SpinnerShown(r) && !AlertShown(r) && !DetailsShown(r)
  {
  }

  /** While the request for a shown coin is pending only the spinner is rendered. */
  lemma PendingShowsSpinnerOnly(st: ModalState, c: Coin)
    ensures var r := Effect(st, Some(c), true).0;
      SpinnerShown(r) && !AlertShown(r) && !DetailsShown(r)
  {
  }

  /**
   * Opening on a coin and receiving its details renders exactly those
   * details; a failure renders the alert (for a non-empty message) and
   * whatever details an earlier request left behind.
   */
  lemma OpenThenSettle(st: ModalState, c: Coin, outcome: Outcome<CoinDetails>)
    ensures var r := Resolve(Effect(st, Some(c), true).0, outcome);
      && !SpinnerShown(r)
      && (outcome.Ok? ==> DetailsShown(r) && r.details == Some(outcome.value) && !AlertShown(r))
      && (outcome.Failed? ==> (DetailsShown(r) <==> st.details.Some?) && r.details == st.details)
      && (outcome == Failed(OtherValue) ==> AlertShown(r) && r.error == Some("Failed to fetch details"))
      && (outcome == Failed(ErrorObject("")) ==> !AlertShown(r))
  {
  }
}

=== FILE: coins_table.dfy ===
/**
 * The market table: a sort state toggled from the column headers, a stable
 * sort over four numeric columns, windowed pagination with clamped Prev/Next
 * handlers, the abbreviated magnitude formatter and the row sparkline.
 */
module CoinsTable {
  import opened Js
  import opened CoinTypes
  import opened ArrayOps
  import opened Sparkline
  import Pagination

  // ---------------------------------------------------------------------------
  // sort state

  datatype SortKey = Price | Change24h | Change7d | MarketCap
  datatype SortOrder = Asc | Desc

  /** `sortKey` (null before any header click) and `sortOrder`. */
  datatype SortState = SortState(key: Option<SortKey>, order: SortOrder)

  const InitialSort := SortState(None, Desc)

  function Flip(o: SortOrder): SortOrder {
    if o == Asc then Desc else Asc
  }

  /** `handleSort`: the current key flips the order; any other key is selected with a descending order. */
  function HandleSort(s: SortState, key: Option<SortKey>): (r: SortState)
    ensures r.key == key
    ensures s.key == key ==> r.order != s.order
    ensures s.key != key ==> r.order == Desc
  {
    if s.key == key then SortState(s.key, Flip(s.order)) else SortState(key, Desc)
  }

  /** Clicking the same header twice restores the state; a new key forgets the previous order. */
  lemma HandleSortToggles(s: SortState, key: Option<SortKey>, other: SortOrder)
    ensures s.key == key ==> HandleSort(HandleSort(s, key), key) == s
    ensures s.key != key ==> HandleSort(s, key) == HandleSort(SortState(s.key, other), key)
    ensures HandleSort(HandleSort(s, key), key).key == key
  {
  }

  datatype Arrow = Up | Down  // " ▲" and " ▼"

  /** `renderSortArrow(column)`: only the active column shows an arrow, pointing up when ascending. */
  function SortArrow(s: SortState, column: SortKey): (r: Option<Arrow>)
    ensures r.Some? <==> s.key == Some(column)
    ensures r == Some(Up) <==> s.key == Some(column) && s.order == Asc
  {
    if s.key != Some(column) then None
    else if s.order == Asc then Some(Up)
    else Some(Down)
  }

  /** After a header click exactly that column shows an arrow. */
  lemma ArrowFollowsClick(s: SortState, key: SortKey, column: SortKey)
    ensures SortArrow(HandleSort(s, Some(key)), column).Some? <==> column == key
  {
  }

  // ---------------------------------------------------------------------------
  // comparator

  /** The value a column sorts on; a missing or null value counts as 0. */
  function SortValue(key: SortKey, c: Coin): (r: real)
    ensures var f := ColumnField(key, c); (f.Num? ==> r == f.v) && (!f.Num? ==> r == 0.0)
  {
    ColumnField(key, c).OrElse(0.0)
  }

  function ColumnField(key: SortKey, c: Coin): Field {
    match key
    case Price => c.currentPrice
    case Change24h => c.change24h
    case Change7d => c.change7d
    case MarketCap => c.marketCap
  }

  /** The comparator of `sortedCoins`: 0 without a key, otherwise the difference of the column values. */
  function Compare(s: SortState, a: Coin, b: Coin): real {
    match s.key
    case None => 0.0
    case Some(k) =>
      if s.order == Asc then SortValue(k, a) - SortValue(k, b) else SortValue(k, b) - SortValue(k, a)
  }

  function TableComparator(s: SortState): Comparator<Coin> {
    (a, b) => Compare(s, a, b)
  }

  /** `[...coins].sort(comparator)`: the rows in display order; `coins` itself is a value and is not changed. */
  function SortedCoins(coins: seq<Coin>, s: SortState): (r: seq<Coin>)
    ensures |r| == |coins|
    ensures multiset(r) == multiset(coins)
  {
    Sort(coins, TableComparator(s))
  }

  lemma ComparatorConsistent(coins: seq<Coin>, s: SortState)
    ensures Consistent(TableComparator(s), coins)
  {
  }

  /** Without a sort key the rows keep the catalog order. */
  lemma NoKeyKeepsOrder(coins: seq<Coin>)
    ensures SortedCoins(coins, SortState(None, Asc)) == coins
    ensures SortedCoins(coins, SortState(None, Desc)) == coins
  {
    SortWithZeroComparator(coins, TableComparator(SortState(None, Asc)));
    SortWithZeroComparator(coins, TableComparator(SortState(None, Desc)));
  }

  /** Ascending puts the column values in non-decreasing order, descending in non-increasing order. */
  lemma SortedByColumn(coins: seq<Coin>, key: SortKey, order: SortOrder)
    ensures var r := SortedCoins(coins, SortState(Some(key), order));
      forall i, j :: 0 <= i < j < |r| ==>
        if order == Asc then SortValue(key, r[i]) <= SortValue(key, r[j])
        else SortValue(key, r[i]) >= SortValue(key, r[j])
  {
    var s := SortState(Some(key), order);
    ComparatorConsistent(coins, s);
    SortIsSorted(coins, TableComparator(s));
    var r := SortedCoins(coins, s);
    forall i, j | 0 <= i < j < |r|
      ensures if order == Asc then SortValue(key, r[i]) <= SortValue(key, r[j])
              else SortValue(key, r[i]) >= SortValue(key, r[j])
    {
      assert TableComparator(s)(r[i], r[j]) <= 0.0;
    }
  }

  /** Rows with equal column values keep their relative catalog order. */
  lemma SortIsStableOnColumn(coins: seq<Coin>, key: SortKey, order: SortOrder, v: real)
    ensures Filter(SortedCoins(coins, SortState(Some(key), order)), c => SortValue(key, c) == v)
         == Filter(coins, c => SortValue(key, c) == v)
  {
    var s := SortState(Some(key), order);
    SortIsStable(coins, TableComparator(s), c => SortValue(key, c) == v);
  }

  // ---------------------------------------------------------------------------
  // magnitude formatter

  /** The divisor that goes with a magnitude letter. */
  function Divisor(suffix: char): real {
    if suffix == 'B' then 1_000_000_000.0
    else if suffix == 'M' then 1_000_000.0
    else 1_000.0
  }

  /**
   * `formatNumber`: "-" for a missing value or NaN; the largest of the
   * thresholds 1e9, 1e6, 1e3 that the value strictly exceeds picks the letter
   * and the divisor; otherwise the number as `toString` renders it.
   */
  function FormatNumber(num: Option<JsNumber>): (r: Shown)
    ensures r == Text("-") <==> num.None? || num.value.NaN?
    ensures r.Scaled? ==> r.suffix in "BMK"
    ensures r.Scaled? && num.Some? && num.value.Finite? ==>
      && r.n.Finite?
      && r.n.v * Divisor(r.suffix) == num.value.v
      && r.n.v > 1.0
      && (r.suffix != 'B' ==> r.n.v <= 1000.0)
    ensures r.ToString? ==> num.Some? && !num.value.Above(1_000.0) && r.n == num.value
    ensures num.Some? && !num.value.NaN? && !num.value.Above(1_000.0) ==> r == ToString(num.value)
  {
    match num
    case None => Text("-")
    case Some(n) =>
      if n.NaN? then Text("-")
      else if n.Above(1_000_000_000.0) then Scaled(n.DivBy(1_000_000_000.0), 'B')
      else if n.Above(1_000_000.0) then Scaled(n.DivBy(1_000_000.0), 'M')
      else if n.Above(1_000.0) then Scaled(n.DivBy(1_000.0), 'K')
      else ToString(n)
  }

  /** Which branch a finite value takes: strict thresholds, so 1e9 itself is shown in millions. */
  lemma FormatNumberBranches(v: real)
    ensures FormatNumber(Some(Finite(0.0))) == ToString(Finite(0.0))
    ensures FormatNumber(Some(Finite(v))).Scaled? <==> v > 1_000.0
    ensures FormatNumber(Some(Finite(v))).Scaled? ==>
      (FormatNumber(Some(Finite(v))).suffix == 'B' <==> v > 1_000_000_000.0) &&
      (FormatNumber(Some(Finite(v))).suffix == 'K' <==> v <= 1_000_000.0)
    ensures FormatNumber(Some(Finite(1_000_000_000.0))) == Scaled(Finite(1000.0), 'M')
  {
  }

  // ---------------------------------------------------------------------------
  // sparkline

  /** `generateSparkline`: one point per 7-day price, numbered from 0; no series gives no points. */
  function GenerateSparkline(c: Coin): (r: seq<Point>)
    ensures c.sparkline.None? ==> r == []
    ensures c.sparkline.Some? ==> Values(r) == c.sparkline.value
    ensures forall i :: 0 <= i < |r| ==> r[i].index == i
  {
    match c.sparkline
    case None => []
    case Some(prices) => Points(prices, 0)
  }

  // ---------------------------------------------------------------------------
  // pagination

  /** `Math.ceil(n / pageSize)`. */
  function TotalPages(n: nat, pageSize: nat): (r: nat)
    requires pageSize > 0
    ensures n <= r * pageSize
    ensures r == 0 || (r - 1) * pageSize < n
  {
    (n + pageSize - 1) / pageSize
  }

  /** `(currentPage - 1) * pageSize`. */
  function StartIndex(page: int, pageSize: nat): int {
    (page - 1) * pageSize
  }

  /** `sortedCoins.slice(startIndex, startIndex + pageSize)`. */
  function CurrentRows(sorted: seq<Coin>, page: int, pageSize: nat): seq<Coin> {
    Slice(sorted, StartIndex(page, pageSize), StartIndex(page, pageSize) + pageSize)
  }

  /** The row number printed in the first column. */
  function RowNumber(page: int, pageSize: nat, idx: nat): int {
    StartIndex(page, pageSize) + idx + 1
  }

  /**
   * Page `p >= 1` shows exactly the rows at indices `[(p-1)*size, min(p*size, n))`,
   * and the number printed next to a row is its 1-based position in the sorted list.
   */
  lemma VisibleWindow(sorted: seq<Coin>, page: int, pageSize: nat)
    requires page >= 1 && pageSize > 0
    ensures var rows := CurrentRows(sorted, page, pageSize);
      && |rows| == Max(0, Min(page * pageSize, |sorted|) - (page - 1) * pageSize)
      && forall idx :: 0 <= idx < |rows| ==>
           1 <= RowNumber(page, pageSize, idx) <= |sorted| && rows[idx] == sorted[RowNumber(page, pageSize, idx) - 1]
  {
    var start := StartIndex(page, pageSize);
    var end := start + pageSize;
    assert start == (page - 1) * pageSize >= 0;
    assert end == page * pageSize by {
      assert (page - 1) * pageSize + pageSize == page * pageSize;
    }
    SliceWindow(sorted, start, end);
    var rows := CurrentRows(sorted, page, pageSize);
    assert rows == Slice(sorted, start, end);
    forall idx | 0 <= idx < |rows|
      ensures 1 <= RowNumber(page, pageSize, idx) <= |sorted|
      ensures rows[idx] == sorted[RowNumber(page, pageSize, idx) - 1]
    {
      assert RowNumber(page, pageSize, idx) - 1 == start + idx;
    }
  }

  /** Every page up to the last is non-empty; the last holds the remainder. */
  lemma PagesNonEmpty(sorted: seq<Coin>, page: int, pageSize: nat)
    requires pageSize > 0
    requires 1 <= page <= TotalPages(|sorted|, pageSize)
    ensures |CurrentRows(sorted, page, pageSize)| > 0
    ensures page == TotalPages(|sorted|, pageSize) ==>
      |CurrentRows(sorted, page, pageSize)| == |sorted| - (page - 1) * pageSize
    ensures page < TotalPages(|sorted|, pageSize) ==> |CurrentRows(sorted, page, pageSize)| == pageSize
  {
    VisibleWindow(sorted, page, pageSize);
    var t := TotalPages(|sorted|, pageSize);
    if page < t {
      assert page * pageSize <= (t - 1) * pageSize by {
        MulMonotone(page, t - 1, pageSize);
      }
    } else {
      assert (page - 1) * pageSize < |sorted|;
    }
  }

  lemma MulMonotone(a: int, b: int, k: nat)
    requires a <= b
    ensures a * k <= b * k
  {
  }

  /** Page 0, which Next produces when there are no pages, shows no rows. */
  lemma PageZeroIsEmpty(sorted: seq<Coin>, pageSize: nat)
    requires pageSize > 0
    ensures CurrentRows(sorted, 0, pageSize) == []
  {
  }

  /** `handlePrev`: never below page 1. */
  function PrevPage(page: int): (r: int)
    ensures r >= 1
    ensures page <= 1 ==> r == 1
    ensures page > 1 ==> r == page - 1
  {
    Max(page - 1, 1)
  }

  /** `handleNext`: never above `totalPages`, so 0 when there are no pages. */
  function NextPage(page: int, totalPages: nat): (r: int)
    ensures r <= totalPages
    ensures page < totalPages ==> r == page + 1
    ensures totalPages == 0 && page >= -1 ==> r == 0
  {
    Min(page + 1, totalPages)
  }

  // ---------------------------------------------------------------------------
  // the table as a state machine

  datatype TableState = TableState(sort: SortState, page: int)

  const InitialTable := TableState(InitialSort, 1)

  datatype Event = HeaderClick(key: SortKey) | PrevClick | NextClick | PageClick(number: int)

  /**
   * One user action on a table of `n` rows. Prev and Next are disabled on the
   * first and the last page respectively; a disabled button ignores clicks.
   */
  function Step(st: TableState, ev: Event, n: nat, pageSize: nat): TableState
    requires pageSize > 0
  {
    var total := TotalPages(n, pageSize);
    match ev
    case HeaderClick(k) => st.(sort := HandleSort(st.sort, Some(k)))
    case PrevClick => if Pagination.PrevDisabled(st.page) then st else st.(page := PrevPage(st.page))
    case NextClick => if Pagination.NextDisabled(st.page, total) then st else st.(page := NextPage(st.page, total))
    case PageClick(p) => st.(page := p)
  }

  /** Disabling agrees with the clamps: a disabled button's handler would not move the page. */
  lemma DisabledButtonsAreNoOps(page: int, totalPages: nat)
    ensures Pagination.PrevDisabled(page) ==> PrevPage(page) == page
    ensures Pagination.NextDisabled(page, totalPages) ==> NextPage(page, totalPages) == page
  {
  }

  /** The page is in `[1, totalPages]`, or 0 or 1 while there are no pages. */
  predicate PageInRange(page: int, totalPages: nat) {
    if totalPages == 0 then 0 <= page <= 1 else 1 <= page <= totalPages
  }

  /** Header clicks, Prev, Next and clicks on a rendered page button keep the page in range. */
  lemma StepKeepsPageInRange(st: TableState, ev: Event, n: nat, pageSize: nat)
    requires pageSize > 0
    requires PageInRange(st.page, TotalPages(n, pageSize))
    requires ev.PageClick? ==> 1 <= ev.number <= TotalPages(n, pageSize)
    ensures PageInRange(Step(st, ev, n, pageSize).page, TotalPages(n, pageSize))
    ensures ev.HeaderClick? ==> Step(st, ev, n, pageSize).page == st.page
  {
  }

  /** The initial page is in range for any number of rows. */
  lemma InitialPageInRange(n: nat, pageSize: nat)
    requires pageSize > 0
    ensures PageInRange(InitialTable.page, TotalPages(n, pageSize))
  {
  }
}

=== FILE: highlights.dfy ===
/**
 * The highlights section: the trending feed left-joined onto the catalog,
 * the top-gainers and top-losers lists, the preview prefixes, and the cells
 * of the "view more" dialog.
 */
module Highlights {
  import opened Js
  import opened CoinTypes
  import opened ArrayOps

  /** Rows in the small previews, the highlight cards, and the two "view more" dialogs. */
  const PreviewRows: nat := 3
  const CardRows: nat := 20
  const ViewMoreRows: nat := 25
  const CardViewMoreRows: nat := 50

  // ---------------------------------------------------------------------------
  // trending merge

  /** `coins.findIndex(c => c.id === id)`, with `None` for no match. */
  function FindIndex(coins: seq<Coin>, id: string): (r: Option<nat>)
    ensures r.Some? ==> r.value < |coins| && coins[r.value].id == id
    ensures r.Some? ==> forall j :: 0 <= j < r.value ==> coins[j].id != id
    ensures r.None? ==> forall j :: 0 <= j < |coins| ==> coins[j].id != id
  {
    if |coins| == 0 then None
    else if coins[0].id == id then Some(0)
    else match FindIndex(coins[1..], id)
      case None => None
      case Some(i) => Some(i + 1)
  }

  /** `coins.find(c => c.id === id)`: the first catalog row with that id. */
  function FindById(coins: seq<Coin>, id: string): Option<Coin> {
    match FindIndex(coins, id)
    case None => None
    case Some(i) => Some(coins[i])
  }

  /**
   * The object `{ ...item, ...match }`: every key of either record. Keys
   * only a catalog row carries are absent (`Undefined`, `None`) when there
   * is no match; trending items carry `thumb` and `price_btc`, which catalog
   * rows do not have.
   */
  datatype MergedRow = MergedRow(
    id: string,
    name: string,
    symbol: string,
    thumb: string,
    priceBtc: Field,
    image: Option<string>,
    currentPrice: Field,
    marketCap: Field,
    marketCapRank: Field,
    change24h: Field,
    priceChange24h: Field,
    totalVolume: Field,
    change7d: Field,
    sparkline: Option<seq<real>>
  )

  /** The merged row read back as a trending item. */
  function ItemPart(r: MergedRow): TrendingItem {
    TrendingItem(r.id, r.name, r.symbol, r.thumb, r.priceBtc)
  }

  /** The merged row read back as a catalog row, when it carries the catalog-only keys. */
  function CoinPart(r: MergedRow): Option<Coin> {
    match r.image
    case None => None
    case Some(img) =>
      Some(Coin(r.id, r.symbol, r.name, img, r.currentPrice, r.marketCap, r.marketCapRank,
                r.change24h, r.priceChange24h, r.totalVolume, r.change7d, r.sparkline))
  }

  /** No catalog-only key is present. */
  predicate CatalogKeysAbsent(r: MergedRow) {
    && r.image.None? && r.currentPrice.Undefined? && r.marketCap.Undefined? && r.marketCapRank.Undefined?
    && r.change24h.Undefined? && r.priceChange24h.Undefined? && r.totalVolume.Undefined?
    && r.change7d.Undefined? && r.sparkline.None?
  }

  /**
   * Object spread of an item and its match: the matched catalog row's value
   * wins for every key it has; without a match the row is exactly the item.
   */
  function Spread(item: TrendingItem, m: Option<Coin>): (r: MergedRow)
    ensures m.Some? ==> CoinPart(r) == m && r.thumb == item.thumb && r.priceBtc == item.priceBtc
    ensures m.None? ==> ItemPart(r) == item && CatalogKeysAbsent(r)
  {
    match m
    case None =>
      MergedRow(item.id, item.name, item.symbol, item.thumb, item.priceBtc, None,
                Undefined, Undefined, Undefined, Undefined, Undefined, Undefined, Undefined, None)
    case Some(c) =>
      MergedRow(c.id, c.name, c.symbol, item.thumb, item.priceBtc, Some(c.image),
                c.currentPrice, c.marketCap, c.marketCapRank, c.change24h, c.priceChange24h,
                c.totalVolume, c.change7d, c.sparkline)
  }

  /** Each row of `trending` merged with the first catalog row of the same id. */
  function MergeAll(trending: seq<TrendingCoin>, coins: seq<Coin>): (r: seq<MergedRow>)
    ensures |r| == |trending|
    ensures forall i :: 0 <= i < |r| ==> r[i] == Spread(trending[i].item, FindById(coins, trending[i].item.id))
  {
    if |trending| == 0 then []
    else [Spread(trending[0].item, FindById(coins, trending[0].item.id))] + MergeAll(trending[1..], coins)
  }

  /** `trendingWithMarketData`: `trendingCoins?.map(...) || []`. */
  function TrendingWithMarketData(trending: Option<seq<TrendingCoin>>, coins: seq<Coin>): (r: seq<MergedRow>)
    ensures trending.None? ==> r == []
    ensures trending.Some? ==> |r| == |trending.value|
  {
    match trending
    case None => []
    case Some(t) => MergeAll(t, coins)
  }

  /**
   * The merged list follows the trending feed: same length and order, each
   * row matched to the first catalog row with its id, whose every key wins,
   * and rows without a match kept with exactly the item's keys.
   */
  lemma MergeFollowsFeed(trending: seq<TrendingCoin>, coins: seq<Coin>, i: nat)
    requires i < |trending|
    ensures var r := TrendingWithMarketData(Some(trending), coins)[i];
      var item := trending[i].item;
      && r.thumb == item.thumb && r.priceBtc == item.priceBtc
      && ((exists j :: 0 <= j < |coins| && coins[j].id == item.id) ==>
            exists j :: 0 <= j < |coins| && CoinPart(r) == Some(coins[j]) && coins[j].id == item.id
                        && forall k :: 0 <= k < j ==> coins[k].id != item.id)
      && ((forall j :: 0 <= j < |coins| ==> coins[j].id != item.id) ==> ItemPart(r) == item && CatalogKeysAbsent(r))
  {
    var item := trending[i].item;
    match FindIndex(coins, item.id)
    case None =>
    case Some(j) =>
      assert CoinPart(TrendingWithMarketData(Some(trending), coins)[i]) == Some(coins[j]);
  }

  /** A preview shows a prefix of the merged list: `slice(0, k)`. */
  function TrendingPreview(merged: seq<MergedRow>, k: nat): (r: seq<MergedRow>)
    ensures r == merged[..Min(k, |merged|)]
  {
    SlicePrefix(merged, k);
    Slice(merged, 0, k)
  }

  // ---------------------------------------------------------------------------
  // top gainers and losers

  /** `a - b` as the sort sees it: a NaN difference (from a missing value) counts as 0. */
  function Difference(a: JsNumber, b: JsNumber): real {
    if a.Finite? && b.Finite? then a.v - b.v else 0.0
  }

  /** `(a, b) => b.price_change_percentage_24h - a.price_change_percentage_24h`. */
  function GainersCompare(a: Coin, b: Coin): real {
    Difference(b.change24h.ToNumber(), a.change24h.ToNumber())
  }

  /** `(a, b) => a.price_change_percentage_24h - b.price_change_percentage_24h`. */
  function LosersCompare(a: Coin, b: Coin): real {
    Difference(a.change24h.ToNumber(), b.change24h.ToNumber())
  }

  function GainersComparator(): Comparator<Coin> {
    GainersCompare
  }

  function LosersComparator(): Comparator<Coin> {
    LosersCompare
  }

  /** `[...coins].sort(gainers).slice(0, k)`. */
  function TopGainers(coins: seq<Coin>, k: nat): (r: seq<Coin>)
    ensures |r| == Min(k, |coins|)
    ensures multiset(r) <= multiset(coins)
  {
    var sorted := Sort(coins, GainersComparator());
    SlicePrefix(sorted, k);
    PrefixMultiset(sorted, Min(k, |coins|));
    Slice(sorted, 0, k)
  }

  /** `[...coins].sort(losers).slice(0, k)`. */
  function TopLosers(coins: seq<Coin>, k: nat): (r: seq<Coin>)
    ensures |r| == Min(k, |coins|)
    ensures multiset(r) <= multiset(coins)
  {
    var sorted := Sort(coins, LosersComparator());
    SlicePrefix(sorted, k);
    PrefixMultiset(sorted, Min(k, |coins|));
    Slice(sorted, 0, k)
  }

  lemma PrefixMultiset<T>(s: seq<T>, n: nat)
    requires n <= |s|
    ensures multiset(s[..n]) + multiset(s[n..]) == multiset(s)
  {
    assert s == s[..n] + s[n..];
  }

  /** The 24h change as the comparators read it once it is known not to be missing: null counts as 0. */
  function ChangeValue(c: Coin): real {
    c.change24h.OrElse(0.0)
  }

  /** Every coin carries a 24h-change key (possibly null), so the comparators are consistent. */
  predicate AllChangesPresent(coins: seq<Coin>) {
    forall i :: 0 <= i < |coins| ==> !coins[i].change24h.Undefined?
  }

  /** For two coins carrying the change, the comparators compare the changes. */
  lemma CompareChanges(a: Coin, b: Coin)
    requires !a.change24h.Undefined? && !b.change24h.Undefined?
    ensures GainersCompare(a, b) == ChangeValue(b) - ChangeValue(a)
    ensures LosersCompare(a, b) == ChangeValue(a) - ChangeValue(b)
  {
  }

  lemma GainersConsistent(coins: seq<Coin>)
    requires AllChangesPresent(coins)
    ensures Consistent(GainersComparator(), coins)
  {
    forall a, b | a in coins && b in coins ensures GainersCompare(a, b) == ChangeValue(b) - ChangeValue(a) {
      CompareChanges(a, b);
    }
  }

  lemma LosersConsistent(coins: seq<Coin>)
    requires AllChangesPresent(coins)
    ensures Consistent(LosersComparator(), coins)
  {
    forall a, b | a in coins && b in coins ensures LosersCompare(a, b) == ChangeValue(a) - ChangeValue(b) {
      CompareChanges(a, b);
    }
  }

  /** Any reordering of coins that all carry the change still carries it everywhere. */
  lemma ChangesPresentPermuted(coins: seq<Coin>, other: seq<Coin>)
    requires AllChangesPresent(coins)
    requires multiset(other) == multiset(coins)
    ensures AllChangesPresent(other)
  {
    forall i | 0 <= i < |other| ensures !other[i].change24h.Undefined? {
      assert other[i] in multiset(coins);
    }
  }

  lemma GainersSorted(coins: seq<Coin>)
    requires AllChangesPresent(coins)
    ensures SortedBy(GainersComparator(), Sort(coins, GainersComparator()))
    ensures AllChangesPresent(Sort(coins, GainersComparator()))
  {
    GainersConsistent(coins);
    SortIsSorted(coins, GainersComparator());
    ChangesPresentPermuted(coins, Sort(coins, GainersComparator()));
  }

  lemma LosersSorted(coins: seq<Coin>)
    requires AllChangesPresent(coins)
    ensures SortedBy(LosersComparator(), Sort(coins, LosersComparator()))
    ensures AllChangesPresent(Sort(coins, LosersComparator()))
  {
    LosersConsistent(coins);
    SortIsSorted(coins, LosersComparator());
    ChangesPresentPermuted(coins, Sort(coins, LosersComparator()));
  }

  /** The rows are in non-increasing order of 24h change when `descending`, non-decreasing otherwise. */
  ghost predicate OrderedByChange(r: seq<Coin>, descending: bool) {
    forall i, j :: 0 <= i < j < |r| ==>
      if descending then ChangeValue(r[i]) >= ChangeValue(r[j]) else ChangeValue(r[i]) <= ChangeValue(r[j])
  }

  /** No coin of `coins` left out of `r` ranks before a row of `r`. */
  ghost predicate NoneLeftOutRanksBefore(coins: seq<Coin>, r: seq<Coin>, descending: bool) {
    forall i, y :: 0 <= i < |r| && y in multiset(coins) - multiset(r) ==>
      if descending then ChangeValue(y) <= ChangeValue(r[i]) else ChangeValue(r[i]) <= ChangeValue(y)
  }

  /** The comparator orders two coins carrying the change as `descending` says. */
  ghost predicate ComparatorRanks(cmp: Comparator<Coin>, descending: bool, a: Coin, b: Coin) {
    cmp(a, b) <= 0.0 ==> if descending then ChangeValue(a) >= ChangeValue(b) else ChangeValue(a) <= ChangeValue(b)
  }

  /**
   * The first `n` rows of a comparator-ordered list, when the comparator
   * ranks by change, are ordered by change and outrank every row after them.
   */
  lemma TopOfSorted(sorted: seq<Coin>, cmp: Comparator<Coin>, descending: bool, n: nat)
    requires SortedBy(cmp, sorted)
    requires n <= |sorted|
    requires forall a, b :: a in sorted && b in sorted ==> ComparatorRanks(cmp, descending, a, b)
    ensures OrderedByChange(sorted[..n], descending)
    ensures NoneLeftOutRanksBefore(sorted, sorted[..n], descending)
  {
    var r := sorted[..n];
    forall i, j | 0 <= i < j < |r|
      ensures if descending then ChangeValue(r[i]) >= ChangeValue(r[j]) else ChangeValue(r[i]) <= ChangeValue(r[j])
    {
      assert r[i] == sorted[i] && r[j] == sorted[j];
      assert ComparatorRanks(cmp, descending, sorted[i], sorted[j]);
    }
    PrefixMultiset(sorted, n);
    PrefixPrecedesRest(sorted, cmp, n);
    forall i, y | 0 <= i < |r| && y in multiset(sorted) - multiset(r)
      ensures if descending then ChangeValue(y) <= ChangeValue(r[i]) else ChangeValue(r[i]) <= ChangeValue(y)
    {
      assert y in multiset(sorted[n..]);
      assert y in multiset(sorted);
      assert cmp(sorted[i], y) <= 0.0;
      assert ComparatorRanks(cmp, descending, sorted[i], y);
    }
  }

  /** Both comparators rank coins carrying the change by it. */
  lemma ComparatorsRank(coins: seq<Coin>)
    requires AllChangesPresent(coins)
    ensures forall a, b :: a in coins && b in coins ==> ComparatorRanks(GainersComparator(), true, a, b)
    ensures forall a, b :: a in coins && b in coins ==> ComparatorRanks(LosersComparator(), false, a, b)
  {
    forall a, b | a in coins && b in coins
      ensures ComparatorRanks(GainersComparator(), true, a, b) && ComparatorRanks(LosersComparator(), false, a, b)
    {
      CompareChanges(a, b);
    }
  }

  /**
   * When every coin carries the 24h change, the top gainers are in
   * non-increasing order of it and none of the coins left out has a larger
   * change than any coin shown.
   */
  lemma TopGainersAreTop(coins: seq<Coin>, k: nat)
    requires AllChangesPresent(coins)
    ensures OrderedByChange(TopGainers(coins, k), true)
    ensures NoneLeftOutRanksBefore(coins, TopGainers(coins, k), true)
  {
    var sorted := Sort(coins, GainersComparator());
    GainersSorted(coins);
    ComparatorsRank(sorted);
    var n := Min(k, |coins|);
    SlicePrefix(sorted, k);
    TopOfSorted(sorted, GainersComparator(), true, n);
    assert TopGainers(coins, k) == sorted[..n];
    assert multiset(sorted) == multiset(coins);
  }

  /**
   * When every coin carries the 24h change, the top losers are in
   * non-decreasing order of it and none of the coins left out has a smaller
   * change than any coin shown.
   */
  lemma TopLosersAreBottom(coins: seq<Coin>, k: nat)
    requires AllChangesPresent(coins)
    ensures OrderedByChange(TopLosers(coins, k), false)
    ensures NoneLeftOutRanksBefore(coins, TopLosers(coins, k), false)
  {
    var sorted := Sort(coins, LosersComparator());
    LosersSorted(coins);
    ComparatorsRank(sorted);
    var n := Min(k, |coins|);
    SlicePrefix(sorted, k);
    TopOfSorted(sorted, LosersComparator(), false, n);
    assert TopLosers(coins, k) == sorted[..n];
    assert multiset(sorted) == multiset(coins);
  }

  // ---------------------------------------------------------------------------
  // the "view more" dialog

  /** The keys a dialog row reads, from either a catalog row or a merged trending row. */
  datatype DialogRow = DialogRow(rank: Field, name: string, symbol: string, price: Field, change24h: Field, marketCap: Field)

  function CoinRow(c: Coin): DialogRow {
    DialogRow(c.marketCapRank, c.name, c.symbol, c.currentPrice, c.change24h, c.marketCap)
  }

  function MergedDialogRow(r: MergedRow): DialogRow {
    DialogRow(r.marketCapRank, r.name, r.symbol, r.currentPrice, r.change24h, r.marketCap)
  }

  /** `coin.market_cap_rank ?? idx + 1`. */
  function RankCell(row: DialogRow, idx: nat): (r: real)
    ensures row.rank.Num? ==> r == row.rank.v
    ensures !row.rank.Num? ==> r == (idx + 1) as real
  {
    row.rank.OrElse((idx + 1) as real)
  }

  /** `coin.price_change_percentage_24h?.toFixed(2) ?? "0"` followed by `%`. */
  function ChangeCell(row: DialogRow): (r: Shown)
    ensures row.change24h.Num? ==> r == Percent(Fixed2(row.change24h.v))
    ensures !row.change24h.Num? ==> r == Percent(Text("0"))
  {
    match row.change24h
    case Num(x) => Percent(Fixed2(x))
    case _ => Percent(Text("0"))
  }

  /**
   * The price and market-cap cells: a literal "$" followed by
   * `value?.toLocaleString()`. React renders an undefined child as nothing, so a
   * missing or null value leaves the dollar sign alone.
   */
  function MoneyCell(f: Field): (r: Shown)
    ensures r.Dollar?
    ensures r.inner == Text("") <==> !f.Num?
    ensures f.Num? ==> r.inner == Locale(f.v)
  {
    match f
    case Num(x) => Dollar(Locale(x))
    case _ => Dollar(Text(""))
  }

  /** The cell is coloured as a gain exactly when `change >= 0` holds in JavaScript. */
  predicate ChangeIsGain(row: DialogRow) {
    row.change24h.AtLeastZero()
  }

  /**
   * A missing change shows "0" either way, but its colour depends on the
   * kind of absence: a null compares as 0 and is coloured as a gain, an
   * absent key compares as NaN and is coloured as a loss.
   */
  lemma MissingChangeColour(row: DialogRow)
    ensures row.change24h.Null? ==> ChangeIsGain(row) && ChangeCell(row) == Percent(Text("0"))
    ensures row.change24h.Undefined? ==> !ChangeIsGain(row) && ChangeCell(row) == Percent(Text("0"))
    ensures row.change24h.Num? ==> (ChangeIsGain(row) <==> row.change24h.v >= 0.0)
  {
  }

  /**
   * A trending row without a catalog match is ranked by its position in the
   * dialog, shows a "0" change coloured as a loss, and bare dollar signs for
   * its price and market cap.
   */
  lemma UnmatchedTrendingRow(item: TrendingItem, idx: nat)
    ensures var row := MergedDialogRow(Spread(item, None));
      && RankCell(row, idx) == (idx + 1) as real
      && ChangeCell(row) == Percent(Text("0")) && !ChangeIsGain(row)
      && MoneyCell(row.price) == Dollar(Text("")) && MoneyCell(row.marketCap) == Dollar(Text(""))
  {
  }

  /** The dialog: shown flag, title and rows. */
  datatype Dialog = Dialog(show: bool, title: string, rows: seq<DialogRow>)

  const InitialDialog := Dialog(false, "", [])

  /** `handleViewMore(title, data)`. */
  function ViewMore(d: Dialog, title: string, rows: seq<DialogRow>): (r: Dialog)
    ensures r.show && r.title == title && r.rows == rows
  {
    Dialog(true, title, rows)
  }

  /** Closing hides the dialog and keeps its title and rows. */
  function CloseDialog(d: Dialog): (r: Dialog)
    ensures !r.show && r.title == d.title && r.rows == d.rows
  {
    d.(show := false)
  }

  /** The three lists with a "view more" link. */
  datatype HighlightList = TrendingList | GainersList | LosersList

  function ListTitle(l: HighlightList): string {
    match l
    case TrendingList => "Trending Coins"
    case GainersList => "Top Gainers (24h)"
    case LosersList => "Top Losers (24h)"
  }

  /** Rows of any shape, read as dialog rows. */
  function MapRows<T>(rows: seq<T>, f: T -> DialogRow): (r: seq<DialogRow>)
    ensures |r| == |rows| && forall i :: 0 <= i < |r| ==> r[i] == f(rows[i])
  {
    seq(|rows|, i requires 0 <= i < |rows| => f(rows[i]))
  }

  /** The first `k` rows of a list: the merged trending feed, or the catalog sorted by change. */
  function ListRows(l: HighlightList, merged: seq<MergedRow>, coins: seq<Coin>, k: nat): (r: seq<DialogRow>)
    ensures |r| <= k
    ensures l == TrendingList ==> |r| == Min(k, |merged|)
    ensures l != TrendingList ==> |r| == Min(k, |coins|)
  {
    match l
    case TrendingList => MapRows(TrendingPreview(merged, k), MergedDialogRow)
    case GainersList => MapRows(TopGainers(coins, k), CoinRow)
    case LosersList => MapRows(TopLosers(coins, k), CoinRow)
  }

  /** Rows a list shows in place: 3 in the overview previews, 20 in the highlight cards. */
  function PreviewOf(l: HighlightList, fromCards: bool, merged: seq<MergedRow>, coins: seq<Coin>): seq<DialogRow> {
    ListRows(l, merged, coins, if fromCards then CardRows else PreviewRows)
  }

  /** A "view more" link: the dialog opens on the list's title and its first 25 rows, or 50 from a card. */
  function OpenList(d: Dialog, l: HighlightList, fromCards: bool, merged: seq<MergedRow>, coins: seq<Coin>): (r: Dialog)
    ensures r.show && r.title == ListTitle(l)
    ensures var n := if fromCards then CardViewMoreRows else ViewMoreRows;
      |r.rows| == (if l == TrendingList then Min(n, |merged|) else Min(n, |coins|))
    ensures l == TrendingList ==> forall i :: 0 <= i < |r.rows| ==> r.rows[i] == MergedDialogRow(merged[i])
  {
    ViewMore(d, ListTitle(l), ListRows(l, merged, coins, if fromCards then CardViewMoreRows else ViewMoreRows))
  }

  /** Fewer rows of a list are the first of more rows of it. */
  lemma ListRowsPrefix(l: HighlightList, merged: seq<MergedRow>, coins: seq<Coin>, j: nat, k: nat)
    requires j <= k
    ensures ListRows(l, merged, coins, j) <= ListRows(l, merged, coins, k)
  {
    match l
    case TrendingList =>
    case GainersList =>
      var sorted := Sort(coins, GainersComparator());
      SlicePrefix(sorted, j);
      SlicePrefix(sorted, k);
    case LosersList =>
      var sorted := Sort(coins, LosersComparator());
      SlicePrefix(sorted, j);
      SlicePrefix(sorted, k);
  }

  /**
   * Each preview shows the first rows of the dialog its link opens, and the
   * dialog, hidden at first, is shown by the link under the list's title.
   */
  lemma PreviewLeadsDialog(l: HighlightList, fromCards: bool, merged: seq<MergedRow>, coins: seq<Coin>)
    ensures !InitialDialog.show
    ensures var d := OpenList(InitialDialog, l, fromCards, merged, coins);
      && d.show && d.title == ListTitle(l)
      && PreviewOf(l, fromCards, merged, coins) <= d.rows
  {
    ListRowsPrefix(l, merged, coins, if fromCards then CardRows else PreviewRows,
                   if fromCards then CardViewMoreRows else ViewMoreRows);
  }
}

=== FILE: js.dfy ===
/**
 * The small slice of JavaScript value semantics that the dashboard's view
 * logic depends on: optional values, IEEE numbers with their special values,
 * JSON number fields that may be absent or null, thrown values, and the
 * structured form of a rendered cell.
 */
module Js {

  /** An optional value: `None` stands for a missing or null source value. */
  datatype Option<+T> = None | Some(value: T)

  /** A JavaScript number: a finite value or one of the IEEE special values. */
  datatype JsNumber = Finite(v: real) | NaN | Infinity | NegInfinity {

    /** `Number.isFinite`-style test. */
    predicate IsFinite() {
      Finite?
    }

    /** `n > t` for a finite threshold `t`; every comparison with NaN is false. */
    predicate Above(t: real) {
      match this
      case Finite(x) => x > t
      case Infinity => true
      case NegInfinity => false
      case NaN => false
    }

    /** `n / d` for a positive finite divisor `d`. */
    function DivBy(d: real): (r: JsNumber)
      requires d > 0.0
      ensures r.Finite? <==> Finite?
      ensures Finite? ==> r.v * d == v
    {
      match this
      case Finite(x) => Finite(x / d)
      case _ => this
    }
  }

  /**
   * A numeric property of a record decoded from JSON: the key may be absent
   * (`undefined`), hold `null`, or hold a number. JSON cannot carry NaN or
   * the infinities, so a present number is always finite.
   */
  datatype Field = Undefined | Null | Num(v: real) {

    /** The nullish-coalescing expression `x ?? d`. */
    function OrElse(d: real): (r: real)
      ensures Num? ==> r == v
      ensures !Num? ==> r == d
    {
      if Num? then v else d
    }

    /** JavaScript truthiness: zero, null and undefined are falsy. */
    predicate Truthy() {
      Num? && v != 0.0
    }

    /** `ToNumber`: `undefined` becomes NaN and `null` becomes 0. */
    function ToNumber(): (r: JsNumber)
      ensures r.NaN? <==> Undefined?
      ensures Null? ==> r == Finite(0.0)
      ensures Num? ==> r == Finite(v)
    {
      match this
      case Undefined => NaN
      case Null => Finite(0.0)
      case Num(x) => Finite(x)
    }

    /** The field as an argument of a `number`-typed parameter: only a number passes `typeof x === "number"`. */
    function AsNumber(): (r: Option<JsNumber>)
      ensures r.Some? <==> Num?
      ensures r.Some? ==> r.value == Finite(v)
    {
      if Num? then Some(Finite(v)) else None
    }

    /** The relational test `x >= 0`, which converts with `ToNumber` first. */
    predicate AtLeastZero() {
      match ToNumber()
      case Finite(x) => x >= 0.0
      case Infinity => true
      case _ => false
    }
  }

  /** A value caught by a `catch` clause: an `Error` object or anything else. */
  datatype Thrown = ErrorObject(message: string) | OtherValue {

    /** `err instanceof Error ? err.message : fallback`. */
    function MessageOr(fallback: string): (r: string)
      ensures ErrorObject? ==> r == message
      ensures OtherValue? ==> r == fallback
    {
      match this
      case ErrorObject(m) => m
      case OtherValue => fallback
    }
  }

  /** The settled value of an awaited request: its value, or what it was rejected with. */
  datatype Outcome<T> = Ok(value: T) | Failed(reason: Thrown)

  /**
   * A rendered cell. Digit rendering itself is not interpreted: a cell keeps
   * the number it renders and the rendering routine that would produce its
   * digits.
   */
  datatype Shown =
    | Text(text: string)                 // a literal string such as a placeholder
    | ToString(n: JsNumber)              // `Number.prototype.toString`
    | Fixed2(x: real)                    // `x.toFixed(2)`
    | Grouped2(x: real)                  // `Intl.NumberFormat("en-US")` with exactly two decimals
    | Locale(x: real)                    // `x.toLocaleString()`
    | Scaled(n: JsNumber, suffix: char)  // `n.toFixed(2)` followed by a magnitude letter
    | Dollar(inner: Shown)               // `"$"` prefixed
    | Percent(inner: Shown)              // `"%"` appended

  function Min(a: int, b: int): int { if a <= b then a else b }
  function Max(a: int, b: int): int { if a >= b then a else b }
}

=== FILE: pagination.dfy ===
/**
 * The page-number control: one item per page, the current one marked
 * active, and Prev/Next buttons that request a neighbouring page without
 * clamping it.
 */
module Pagination {
  import opened Js

  datatype PageItem = PageItem(number: int, active: bool)

  /** The loop `for (number = 1; number <= totalPages; number++) items.push(...)`. */
  method PageItems(currentPage: int, totalPages: int) returns (items: seq<PageItem>)
    ensures |items| == Max(totalPages, 0)
    ensures forall i :: 0 <= i < |items| ==> items[i].number == i + 1
    ensures forall i :: 0 <= i < |items| ==> (items[i].active <==> items[i].number == currentPage)
  {
    items := [];
    var number := 1;
    while number <= totalPages
      invariant 1 <= number <= Max(totalPages, 0) + 1
      invariant |items| == number - 1
      invariant forall i :: 0 <= i < |items| ==> items[i].number == i + 1
      invariant forall i :: 0 <= i < |items| ==> (items[i].active <==> items[i].number == currentPage)
    {
      items := items + [PageItem(number, number == currentPage)];
      number := number + 1;
    }
  }

  /** How many items are marked active. */
  function ActiveCount(items: seq<PageItem>): nat {
    if |items| == 0 then 0
    else (if items[0].active then 1 else 0) + ActiveCount(items[1..])
  }

  /** Exactly one item is active when the current page is in range, none otherwise. */
  lemma {:induction false} OneActiveItem(items: seq<PageItem>, currentPage: int, first: int)
    requires forall i :: 0 <= i < |items| ==> items[i].number == first + i
    requires forall i :: 0 <= i < |items| ==> (items[i].active <==> items[i].number == currentPage)
    ensures ActiveCount(items) == if first <= currentPage < first + |items| then 1 else 0
    decreases |items|
  {
    if |items| > 0 {
      OneActiveItem(items[1..], currentPage, first + 1);
    }
  }

  predicate PrevDisabled(currentPage: int) {
    currentPage == 1
  }

  predicate NextDisabled(currentPage: int, totalPages: int) {
    currentPage == totalPages
  }

  /** The page Prev asks for: the one just before the current page, with no clamping. */
  function PrevTarget(currentPage: int): (r: int)
    ensures r + 1 == currentPage
  {
    currentPage - 1
  }

  /** The page Next asks for: the one just after the current page, with no clamping. */
  function NextTarget(currentPage: int): (r: int)
    ensures r == currentPage + 1
  {
    currentPage + 1
  }

  /** Prev and Next undo each other, so the two buttons walk the page numbers one step at a time. */
  lemma PrevNextInverse(currentPage: int)
    ensures PrevTarget(NextTarget(currentPage)) == currentPage
    ensures NextTarget(PrevTarget(currentPage)) == currentPage
    ensures PrevTarget(currentPage) < currentPage < NextTarget(currentPage)
  {
  }

  /** While the current page is in range, an enabled Prev or Next asks for a page in range. */
  lemma EnabledTargetsInRange(currentPage: int, totalPages: int)
    requires 1 <= currentPage <= totalPages
    ensures !PrevDisabled(currentPage) ==> 1 <= PrevTarget(currentPage) <= totalPages
    ensures !NextDisabled(currentPage, totalPages) ==> 1 <= NextTarget(currentPage) <= totalPages
  {
  }

  /** With no pages, Next on page 1 is enabled and asks for page 2: nothing clamps it. */
  lemma NextNotClamped()
    ensures !NextDisabled(1, 0) && NextTarget(1) == 2
  {
  }
}

=== FILE: search.dfy ===
/**
 * The search predicate shared by the highlights section and the market hook:
 * a coin matches when its lower-cased name or symbol contains the
 * lower-cased query.
 */
module Search {
  import opened CoinTypes
  import opened Text
  import opened ArrayOps

  predicate Matches(c: Coin, query: string) {
    Includes(Lower(c.name), Lower(query)) || Includes(Lower(c.symbol), Lower(query))
  }

  /** A coin matches exactly when the lower-cased query occurs in its lower-cased name or symbol. */
  lemma MatchesIff(c: Coin, query: string)
    ensures Matches(c, query) <==>
      (exists i :: OccursAt(Lower(c.name), Lower(query), i)) || (exists i :: OccursAt(Lower(c.symbol), Lower(query), i))
  {
    var q := Lower(query);
    IncludesIff(Lower(c.name), q);
    IncludesIff(Lower(c.symbol), q);
    if Includes(Lower(c.name), q) {
      var k := IndexOf(Lower(c.name), q, 0).value;
      assert OccursAt(Lower(c.name), q, k);
      assert exists i :: OccursAt(Lower(c.name), Lower(query), i);
    } else if Includes(Lower(c.symbol), q) {
      var k := IndexOf(Lower(c.symbol), q, 0).value;
      assert OccursAt(Lower(c.symbol), q, k);
      assert exists i :: OccursAt(Lower(c.symbol), Lower(query), i);
    }
  }

  /** Matching ignores the case of the query, and the empty query matches every coin. */
  lemma MatchesIgnoresCase(c: Coin, query: string)
    ensures Matches(c, query) == Matches(c, Lower(query))
    ensures Matches(c, "")
  {
    LowerIdempotent(query);
    IncludesIff(Lower(c.name), "");
  }

  /** `coins.filter(coin => matches)`: the matching coins in catalog order. */
  function FilterCoins(coins: seq<Coin>, query: string): (r: seq<Coin>)
    ensures forall c :: c in r ==> c in coins && Matches(c, query)
    ensures forall i :: 0 <= i < |coins| && Matches(coins[i], query) ==> coins[i] in r
    ensures IsSubsequence(r, coins)
  {
    FilterIsSubsequence(coins, c => Matches(c, query));
    Filter(coins, c => Matches(c, query))
  }

  /** The empty query filters nothing out. */
  lemma FilterEmptyQuery(coins: seq<Coin>)
    ensures FilterCoins(coins, "") == coins
  {
    forall i | 0 <= i < |coins| ensures Matches(coins[i], "") {
      MatchesIgnoresCase(coins[i], "");
    }
    FilterKeepsAll(coins, c => Matches(c, ""));
  }
}

=== FILE: sparkline.dfy ===
/**
 * Chart points built from a price series: one point per sample, numbered
 * from a fixed first index, values in series order.
 */
module Sparkline {

  datatype Point = Point(index: int, value: real)

  /** `prices.map((p, i) => ({ index: first + i, value: p }))`. */
  function Points(prices: seq<real>, first: int): (r: seq<Point>)
    ensures |r| == |prices|
    ensures forall i :: 0 <= i < |r| ==> r[i].index == first + i
    ensures Values(r) == prices
    decreases |prices|
  {
    if |prices| == 0 then []
    else
      var rest := Points(prices[1..], first + 1);
      assert prices == [prices[0]] + prices[1..];
      [Point(first, prices[0])] + rest
  }

  /** The series a chart plots: the values of its points, in order. */
  function Values(points: seq<Point>): (r: seq<real>)
    ensures |r| == |points|
    ensures forall i :: 0 <= i < |r| ==> r[i] == points[i].value
  {
    if |points| == 0 then [] else [points[0].value] + Values(points[1..])
  }
}

=== FILE: text.dfy ===
/**
 * The string operations the view code uses: `toLowerCase`, `includes`,
 * `indexOf`, `split` on a non-empty separator and `join`.
 */
module Text {
  import opened Js

  /** Lower-case mapping of one character, restricted to ASCII letters. */
  function LowerChar(c: char): (r: char)
    ensures 'A' <= c <= 'Z' ==> r as int == c as int + 32
    ensures !('A' <= c <= 'Z') ==> r == c
  {
    if 'A' <= c <= 'Z' then (c as int + 32) as char else c
  }

  /** `s.toLowerCase()` on ASCII letters. */
  function Lower(s: string): (r: string)
    ensures |r| == |s|
    ensures forall i :: 0 <= i < |s| ==> r[i] == LowerChar(s[i])
  {
    if |s| == 0 then "" else [LowerChar(s[0])] + Lower(s[1..])
  }

  /** Lower-casing twice is lower-casing once. */
  lemma LowerIdempotent(s: string)
    ensures Lower(Lower(s)) == Lower(s)
  {
    assert forall i :: 0 <= i < |s| ==> LowerChar(LowerChar(s[i])) == LowerChar(s[i]);
  }

  /** `q` occurs in `s` starting at index `i`. */
  predicate OccursAt(s: string, q: string, i: int) {
    0 <= i && i + |q| <= |s| && s[i..i + |q|] == q
  }

  /** `s.indexOf(q, from)`, with `None` for -1. */
  function IndexOf(s: string, q: string, from: nat): (r: Option<nat>)
    ensures r.Some? ==> from <= r.value && OccursAt(s, q, r.value)
    ensures r.Some? ==> forall j :: from <= j < r.value ==> !OccursAt(s, q, j)
    ensures r.None? ==> forall j :: from <= j ==> !OccursAt(s, q, j)
    decreases |s| - from
  {
    if from + |q| > |s| then None
    else if s[from..from + |q|] == q then Some(from)
    else IndexOf(s, q, from + 1)
  }

  /** `s.includes(q)`. */
  predicate Includes(s: string, q: string) {
    IndexOf(s, q, 0).Some?
  }

  /** `includes` holds exactly when `q` occurs somewhere in `s`; the empty string occurs everywhere. */
  lemma IncludesIff(s: string, q: string)
    ensures Includes(s, q) <==> exists i :: OccursAt(s, q, i)
    ensures q == "" ==> Includes(s, q)
  {
    if q == "" {
      assert OccursAt(s, q, 0);
    }
  }

  /** `s.split(sep)` for a non-empty separator: the pieces between successive occurrences. */
  function Split(s: string, sep: string): (r: seq<string>)
    requires |sep| > 0
    ensures |r| >= 1
  {
    SplitFrom(s, sep, 0)
  }

  /** The pieces of `s[from..]`, searching `s` itself from `from` on. */
  function SplitFrom(s: string, sep: string, from: nat): (r: seq<string>)
    requires |sep| > 0 && from <= |s|
    ensures |r| >= 1
    decreases |s| - from
  {
    match IndexOf(s, sep, from)
    case None => [s[from..]]
    case Some(i) => [s[from..i]] + SplitFrom(s, sep, i + |sep|)
  }

  /** `parts.join(sep)`. */
  function Join(parts: seq<string>, sep: string): string {
    if |parts| == 0 then ""
    else if |parts| == 1 then parts[0]
    else parts[0] + sep + Join(parts[1..], sep)
  }

  /** Joining the pieces of a split with the same separator gives back the string. */
  lemma JoinSplit(s: string, sep: string)
    requires |sep| > 0
    ensures Join(Split(s, sep), sep) == s
  {
    JoinSplitFrom(s, sep, 0);
    assert s[0..] == s;
  }

  lemma {:induction false} JoinSplitFrom(s: string, sep: string, from: nat)
    requires |sep| > 0 && from <= |s|
    ensures Join(SplitFrom(s, sep, from), sep) == s[from..]
    decreases |s| - from
  {
    match IndexOf(s, sep, from)
    case None =>
    case Some(i) =>
      var next := i + |sep|;
      JoinSplitFrom(s, sep, next);
      JoinCons(s[from..i], SplitFrom(s, sep, next), sep);
      assert s[i..next] == sep;
      SplitAround(s, from, i, next);
  }

  /** Without an occurrence of the separator, a split is the whole text. */
  lemma SplitNone(s: string, sep: string)
    requires |sep| > 0 && IndexOf(s, sep, 0).None?
    ensures Split(s, sep) == [s]
  {
    SplitFromLast(s, sep, 0);
    assert s[0..] == s;
  }

  /** With exactly one occurrence, at `i`, a split has two pieces. */
  lemma SplitOnce(s: string, sep: string, i: nat)
    requires |sep| > 0 && IndexOf(s, sep, 0) == Some(i) && IndexOf(s, sep, i + |sep|).None?
    ensures |Split(s, sep)| == 2
  {
    SplitFromNext(s, sep, 0, i);
    SplitFromLast(s, sep, i + |sep|);
  }

  /**
   * With occurrences at `i` and then at `k`, a split has more than two pieces,
   * and its first two, rejoined, are the text up to `k`.
   */
  lemma SplitFirstTwo(s: string, sep: string, i: nat, k: nat)
    requires |sep| > 0 && IndexOf(s, sep, 0) == Some(i) && IndexOf(s, sep, i + |sep|) == Some(k)
    ensures |Split(s, sep)| > 2
    ensures s[..k] == Split(s, sep)[0] + sep + Split(s, sep)[1]
  {
    var n := i + |sep|;
    FirstTwoPieces(s, sep, i, k);
    assert s[i..n] == sep;
    PrefixAround(s, i, n, k);
  }

  /** The first two pieces are the text before `i` and the text between the two occurrences. */
  lemma FirstTwoPieces(s: string, sep: string, i: nat, k: nat)
    requires |sep| > 0 && IndexOf(s, sep, 0) == Some(i) && IndexOf(s, sep, i + |sep|) == Some(k)
    ensures i + |sep| <= k
    ensures |Split(s, sep)| > 2 && Split(s, sep)[0] == s[0..i] && Split(s, sep)[1] == s[i + |sep|..k]
  {
    var n := i + |sep|;
    SplitFromNext(s, sep, 0, i);
    SplitFromNext(s, sep, n, k);
  }

  /** The text up to `k` is the text up to `i`, then up to `n`, then up to `k`. */
  lemma PrefixAround(s: string, i: nat, n: nat, k: nat)
    requires i <= n <= k <= |s|
    ensures s[..k] == s[0..i] + s[i..n] + s[n..k]
  { }

  /** Without a further occurrence, the rest of the text is the last piece. */
  lemma SplitFromLast(s: string, sep: string, from: nat)
    requires |sep| > 0 && from <= |s| && IndexOf(s, sep, from).None?
    ensures SplitFrom(s, sep, from) == [s[from..]]
  { }

  /** At the next occurrence `i`, the piece before it comes first and the split resumes after it. */
  lemma SplitFromNext(s: string, sep: string, from: nat, i: nat)
    requires |sep| > 0 && from <= |s| && IndexOf(s, sep, from) == Some(i)
    ensures i + |sep| <= |s|
    ensures SplitFrom(s, sep, from) == [s[from..i]] + SplitFrom(s, sep, i + |sep|)
  { }

  /** Joining a piece in front of a non-empty list puts one separator between them. */
  lemma JoinCons(head: string, parts: seq<string>, sep: string)
    requires |parts| >= 1
    ensures Join([head] + parts, sep) == head + sep + Join(parts, sep)
  {
    assert ([head] + parts)[1..] == parts;
  }

  /** The text from `from` on is the text up to `i`, then up to `j`, then the rest. */
  lemma SplitAround(s: string, from: nat, i: nat, j: nat)
    requires from <= i <= j <= |s|
    ensures s[from..] == s[from..i] + s[i..j] + s[j..]
  { }

  /** No piece of a split contains the separator. */
  lemma SplitPiecesFree(s: string, sep: string)
    requires |sep| > 0
    ensures forall k :: 0 <= k < |Split(s, sep)| ==> !Includes(Split(s, sep)[k], sep)
  {
    SplitFromPiecesFree(s, sep, 0);
  }

  lemma {:induction false} SplitFromPiecesFree(s: string, sep: string, from: nat)
    requires |sep| > 0 && from <= |s|
    ensures forall k :: 0 <= k < |SplitFrom(s, sep, from)| ==> !Includes(SplitFrom(s, sep, from)[k], sep)
    decreases |s| - from
  {
    match IndexOf(s, sep, from)
    case None =>
      PieceFree(s, sep, from, |s|);
      assert s[from..|s|] == s[from..];
    case Some(i) =>
      SplitFromPiecesFree(s, sep, i + |sep|);
      PieceFree(s, sep, from, i);
  }

  /** Slicing a slice is slicing the string at the shifted bounds. */
  lemma SliceOfSlice(s: string, lo: nat, hi: nat, a: nat, b: nat)
    requires lo <= hi <= |s| && a <= b <= hi - lo
    ensures s[lo..hi][a..b] == s[lo + a..lo + b]
  {
    forall k | 0 <= k < b - a ensures s[lo..hi][a..b][k] == s[lo + a..lo + b][k] {
      assert s[lo..hi][a..b][k] == s[lo..hi][a + k] == s[lo + a + k];
    }
  }

  /** A piece `s[from..end]` holds no separator when `s` has none starting in `[from, end)`. */
  lemma PieceFree(s: string, sep: string, from: nat, end: nat)
    requires |sep| > 0 && from <= end <= |s|
    requires forall j :: from <= j < end ==> !OccursAt(s, sep, j)
    ensures !Includes(s[from..end], sep)
  {
    var piece := s[from..end];
    forall j | 0 <= j ensures !OccursAt(piece, sep, j) {
      if OccursAt(piece, sep, j) {
        SliceOfSlice(s, from, end, j, j + |sep|);
        assert OccursAt(s, sep, from + j);
      }
    }
    IncludesIff(piece, sep);
  }

  /** The relational test `a < b` on two strings: a proper prefix, or a smaller character at the first difference. */
  predicate LexLess(a: string, b: string) {
    if |a| == 0 then |b| > 0
    else if |b| == 0 then false
    else if a[0] != b[0] then a[0] < b[0]
    else LexLess(a[1..], b[1..])
  }

  /** String `<` is a strict total order: irreflexive, asymmetric, total on distinct strings. */
  lemma {:induction false} LexStrictTotal(a: string, b: string)
    ensures !LexLess(a, a)
    ensures LexLess(a, b) ==> !LexLess(b, a)
    ensures a != b ==> LexLess(a, b) || LexLess(b, a)
  {
    if |a| > 0 && |b| > 0 {
      LexStrictTotal(a[1..], b[1..]);
      if a[0] == b[0] && a != b {
        assert a == [a[0]] + a[1..] && b == [b[0]] + b[1..];
      }
    }
    if |a| > 0 {
      LexStrictTotal(a[1..], a[1..]);
    }
  }

  /** String `<` is transitive. */
  lemma {:induction false} LexTransitive(a: string, b: string, c: string)
    requires LexLess(a, b) && LexLess(b, c)
    ensures LexLess(a, c)
  {
    if |a| > 0 && |b| > 0 && |c| > 0 && a[0] == b[0] && b[0] == c[0] {
      LexTransitive(a[1..], b[1..], c[1..]);
    }
  }
}

=== FILE: use_coin_gecko.dfy ===
/**
 * The market-data hook: the catalog and trending lists it loads together,
 * the search filter, and the sort it applies by any key of a coin, with a
 * direction that starts ascending.
 */
module CoinGeckoHook {
  import opened Js
  import opened Text
  import opened ArrayOps
  import opened CoinTypes
  import opened Search

  // ---------------------------------------------------------------------------
  // sort configuration

  /** Every key of a market row, as `keyof Coin` allows. */
  datatype CoinKey =
    | Id | Symbol | Name | Image
    | CurrentPrice | MarketCap | MarketCapRank | Change24h | PriceChange24h | TotalVolume | Change7d
    | SparklineKey

  datatype Direction = Ascending | Descending

  datatype SortConfig = SortConfig(key: CoinKey, direction: Direction)

  /**
   * `requestSort(key)`: descending only when the same key is already sorted
   * ascending; a new key, or a second press after descending, sorts ascending.
   */
  function RequestSort(cfg: Option<SortConfig>, key: CoinKey): (r: Option<SortConfig>)
    ensures r.Some? && r.value.key == key
    ensures r.value.direction == Descending <==> cfg == Some(SortConfig(key, Ascending))
  {
    var direction :=
      if cfg.Some? && cfg.value.key == key && cfg.value.direction == Ascending then Descending else Ascending;
    Some(SortConfig(key, direction))
  }

  /** Pressing the same key cycles ascending, descending, ascending. */
  lemma RequestSortCycles(cfg: Option<SortConfig>, key: CoinKey)
    ensures RequestSort(cfg, key).value.direction == Ascending ==>
      RequestSort(RequestSort(cfg, key), key) == Some(SortConfig(key, Descending))
    ensures RequestSort(RequestSort(RequestSort(cfg, key), key), key).value.direction
         != RequestSort(RequestSort(cfg, key), key).value.direction
  {
  }

  // ---------------------------------------------------------------------------
  // the key comparator

  /**
   * The value under a key as the relational operators see it: a string, a
   * number field, or the sparkline object, which converts to the same string
   * "[object Object]" as every other one (or to NaN when absent).
   */
  datatype KeyValue = Str(s: string) | Number(f: Field) | Opaque

  function ValueAt(c: Coin, key: CoinKey): KeyValue {
    match key
    case Id => Str(c.id)
    case Symbol => Str(c.symbol)
    case Name => Str(c.name)
    case Image => Str(c.image)
    case CurrentPrice => Number(c.currentPrice)
    case MarketCap => Number(c.marketCap)
    case MarketCapRank => Number(c.marketCapRank)
    case Change24h => Number(c.change24h)
    case PriceChange24h => Number(c.priceChange24h)
    case TotalVolume => Number(c.totalVolume)
    case Change7d => Number(c.change7d)
    case SparklineKey => Opaque
  }

  /** `a < b`: string order on strings, numeric order after `ToNumber` (false with NaN) on numbers. */
  predicate Less(a: KeyValue, b: KeyValue) {
    match (a, b)
    case (Str(x), Str(y)) => LexLess(x, y)
    case (Number(x), Number(y)) =>
      x.ToNumber().Finite? && y.ToNumber().Finite? && x.ToNumber().v < y.ToNumber().v
    case _ => false
  }

  /**
   * The comparator passed to `sort`: ascending puts `a` first (-1) when its
   * value is `<` that of `b` and last (1) when it is `>`; descending mirrors
   * both; anything else is a tie (0).
   */
  function KeyCompare(cfg: SortConfig, a: Coin, b: Coin): (r: real)
    ensures r == -1.0 || r == 0.0 || r == 1.0
    ensures cfg.direction == Ascending ==>
      (r < 0.0 <==> Less(ValueAt(a, cfg.key), ValueAt(b, cfg.key))) &&
      (r > 0.0 <==> Less(ValueAt(b, cfg.key), ValueAt(a, cfg.key)))
    ensures cfg.direction == Descending ==>
      (r < 0.0 <==> Less(ValueAt(b, cfg.key), ValueAt(a, cfg.key))) &&
      (r > 0.0 <==> Less(ValueAt(a, cfg.key), ValueAt(b, cfg.key)))
    ensures r == 0.0 <==> !Less(ValueAt(a, cfg.key), ValueAt(b, cfg.key)) && !Less(ValueAt(b, cfg.key), ValueAt(a, cfg.key))
  {
    var x := ValueAt(a, cfg.key);
    var y := ValueAt(b, cfg.key);
    LessAsymmetric(x, y);
    if Less(x, y) then (if cfg.direction == Ascending then -1.0 else 1.0)
    else if Less(y, x) then (if cfg.direction == Ascending then 1.0 else -1.0)
    else 0.0
  }

  function HookComparator(cfg: SortConfig): Comparator<Coin> {
    (a: Coin, b: Coin) => KeyCompare(cfg, a, b)
  }

  /** Every row's value under `key` is comparable: a number key is never absent. */
  predicate Comparable(coins: seq<Coin>, key: CoinKey) {
    forall i :: 0 <= i < |coins| ==> !ValueAt(coins[i], key).Number? || !ValueAt(coins[i], key).f.Undefined?
  }

  /** `<` on values under one key is asymmetric. */
  lemma LessAsymmetric(a: KeyValue, b: KeyValue)
    ensures Less(a, b) ==> !Less(b, a)
  {
    if a.Str? && b.Str? {
      LexStrictTotal(a.s, b.s);
    }
  }

  /** Two values read under the same key: both strings, both number fields, or both the sparkline. */
  predicate SameKind(a: KeyValue, b: KeyValue) {
    (a.Str? && b.Str?) || (a.Number? && b.Number?) || (a.Opaque? && b.Opaque?)
  }

  /** On comparable values of one kind, "not greater" is transitive. */
  lemma NotGreaterTransitive(a: KeyValue, b: KeyValue, c: KeyValue)
    requires SameKind(a, b) && SameKind(b, c)
    requires a.Number? ==> !a.f.Undefined?
    requires b.Number? ==> !b.f.Undefined?
    requires c.Number? ==> !c.f.Undefined?
    requires !Less(b, a) && !Less(c, b)
    ensures !Less(c, a)
  {
    if a.Str? && b.Str? && c.Str? {
      LexStrictTotal(a.s, b.s);
      LexStrictTotal(b.s, c.s);
      LexStrictTotal(c.s, a.s);
      if a.s != b.s && b.s != c.s {
        LexTransitive(a.s, b.s, c.s);
      }
    }
  }

  /** "Not greater" in the other direction is transitive too. */
  lemma NotLessTransitive(a: KeyValue, b: KeyValue, c: KeyValue)
    requires SameKind(a, b) && SameKind(b, c)
    requires a.Number? ==> !a.f.Undefined?
    requires b.Number? ==> !b.f.Undefined?
    requires c.Number? ==> !c.f.Undefined?
    requires !Less(a, b) && !Less(b, c)
    ensures !Less(a, c)
  {
    NotGreaterTransitive(c, b, a);
  }

  /** The key comparator is consistent on rows whose values under the key are comparable. */
  lemma HookComparatorConsistent(coins: seq<Coin>, cfg: SortConfig)
    requires Comparable(coins, cfg.key)
    ensures Consistent(HookComparator(cfg), coins)
  {
    var cmp := HookComparator(cfg);
    forall a, b | a in coins && b in coins ensures cmp(a, b) < 0.0 <==> cmp(b, a) > 0.0 {
      LessAsymmetric(ValueAt(a, cfg.key), ValueAt(b, cfg.key));
    }
    forall a, b, c | a in coins && b in coins && c in coins && cmp(a, b) <= 0.0 && cmp(b, c) <= 0.0
      ensures cmp(a, c) <= 0.0
    {
      var x, y, z := ValueAt(a, cfg.key), ValueAt(b, cfg.key), ValueAt(c, cfg.key);
      LessAsymmetric(x, y);
      LessAsymmetric(y, z);
      LessAsymmetric(x, z);
      if cfg.direction == Ascending {
        NotGreaterTransitive(x, y, z);
      } else {
        NotLessTransitive(x, y, z);
      }
    }
  }

  // ---------------------------------------------------------------------------
  // filter and sort

  /** `filteredAndSortedCoins`: filter when the term is non-empty, then sort when a key is chosen. */
  function FilteredAndSorted(coins: seq<Coin>, term: string, cfg: Option<SortConfig>): (r: seq<Coin>)
    ensures multiset(r) <= multiset(coins)
    ensures forall c :: c in r ==> Matches(c, term)
  {
    var filtered := if term != "" then FilterCoins(coins, term) else coins;
    assert multiset(filtered) <= multiset(coins);
    forall c | c in filtered ensures Matches(c, term) {
      if term == "" {
        MatchesIgnoresCase(c, term);
      }
    }
    match cfg
    case None => filtered
    case Some(config) =>
      var r := Sort(filtered, HookComparator(config));
      forall c | c in r ensures c in filtered {
        assert c in multiset(r);
      }
      r
  }

  /** The rows are ordered by the key in the configured direction: no row is followed by one that must precede it. */
  ghost predicate OrderedByKey(r: seq<Coin>, cfg: SortConfig) {
    forall i, j :: 0 <= i < j < |r| ==>
      if cfg.direction == Ascending then !Less(ValueAt(r[j], cfg.key), ValueAt(r[i], cfg.key))
      else !Less(ValueAt(r[i], cfg.key), ValueAt(r[j], cfg.key))
  }

  /**
   * The visible list holds exactly the catalog rows that match the term,
   * each as often as in the catalog, and with comparable values it is
   * ordered by the chosen key.
   */
  lemma FilteredAndSortedSpec(coins: seq<Coin>, term: string, cfg: Option<SortConfig>)
    ensures var filtered := if term != "" then FilterCoins(coins, term) else coins;
      multiset(FilteredAndSorted(coins, term, cfg)) == multiset(filtered)
    ensures forall i :: 0 <= i < |coins| && Matches(coins[i], term) ==> coins[i] in FilteredAndSorted(coins, term, cfg)
    ensures cfg.Some? && Comparable(coins, cfg.value.key) ==> OrderedByKey(FilteredAndSorted(coins, term, cfg), cfg.value)
  {
    var filtered := if term != "" then FilterCoins(coins, term) else coins;
    var r := FilteredAndSorted(coins, term, cfg);
    forall i | 0 <= i < |coins| && Matches(coins[i], term) ensures coins[i] in r {
      assert coins[i] in filtered;
      assert coins[i] in multiset(r);
    }
    if cfg.Some? && Comparable(coins, cfg.value.key) {
      var config := cfg.value;
      ComparableSubset(coins, filtered, config.key);
      HookComparatorConsistent(filtered, config);
      SortIsSorted(filtered, HookComparator(config));
      forall i, j | 0 <= i < j < |r|
        ensures if config.direction == Ascending then !Less(ValueAt(r[j], config.key), ValueAt(r[i], config.key))
                else !Less(ValueAt(r[i], config.key), ValueAt(r[j], config.key))
      {
        assert KeyCompare(config, r[i], r[j]) <= 0.0;
        LessAsymmetric(ValueAt(r[i], config.key), ValueAt(r[j], config.key));
      }
    }
  }

  /** With no key chosen, the list is the filtered catalog in catalog order; with no term, every row. */
  lemma UnsortedKeepsCatalogOrder(coins: seq<Coin>, term: string)
    ensures FilteredAndSorted(coins, term, None) == FilterCoins(coins, term)
    ensures FilteredAndSorted(coins, "", None) == coins
  {
    FilterEmptyQuery(coins);
  }

  /** The row's value under the key neither precedes nor follows the pivot's. */
  predicate TiesWith(c: Coin, pivot: Coin, key: CoinKey) {
    !Less(ValueAt(c, key), ValueAt(pivot, key)) && !Less(ValueAt(pivot, key), ValueAt(c, key))
  }

  /**
   * Among rows tied under the key, the sort keeps the order the filter left
   * them in, whatever the search term.
   */
  lemma SortKeepsTiesInOrder(coins: seq<Coin>, term: string, cfg: SortConfig, pivot: Coin)
    requires Comparable(coins, cfg.key)
    requires Comparable([pivot], cfg.key)
    ensures var filtered := if term != "" then FilterCoins(coins, term) else coins;
      Filter(FilteredAndSorted(coins, term, Some(cfg)), c => TiesWith(c, pivot, cfg.key))
      == Filter(filtered, c => TiesWith(c, pivot, cfg.key))
  {
    var filtered := if term != "" then FilterCoins(coins, term) else coins;
    ComparableSubset(coins, filtered, cfg.key);
    var cmp := HookComparator(cfg);
    var inClass := (c: Coin) => TiesWith(c, pivot, cfg.key);
    var v := ValueAt(pivot, cfg.key);
    assert v.Number? ==> !v.f.Undefined? by {
      assert [pivot][0] == pivot;
    }
    forall a, b | a in filtered && b in filtered && inClass(a) ensures inClass(b) <==> cmp(a, b) == 0.0 {
      var x, y := ValueAt(a, cfg.key), ValueAt(b, cfg.key);
      if inClass(b) {
        NotGreaterTransitive(x, v, y);
        NotLessTransitive(x, v, y);
      } else if cmp(a, b) == 0.0 {
        NotGreaterTransitive(v, x, y);
        NotLessTransitive(v, x, y);
        assert false;
      }
    }
    SortIsStable(filtered, cmp, inClass);
  }

  /** Rows drawn from a comparable catalog are comparable. */
  lemma ComparableSubset(coins: seq<Coin>, sub: seq<Coin>, key: CoinKey)
    requires Comparable(coins, key)
    requires multiset(sub) <= multiset(coins)
    ensures Comparable(sub, key)
  {
    forall i | 0 <= i < |sub|
      ensures !ValueAt(sub[i], key).Number? || !ValueAt(sub[i], key).f.Undefined?
    {
      assert sub[i] in multiset(coins);
    }
  }

  // ---------------------------------------------------------------------------
  // loading

  datatype HookState = HookState(
    coins: seq<Coin>,
    trending: seq<TrendingCoin>,
    loading: bool,
    error: Option<string>,
    page: int,
    searchTerm: string,
    sortConfig: Option<SortConfig>
  )

  const InitialHook := HookState([], [], true, None, 1, "", None)

  /** The start of a fetch sets the loading flag and nothing else. */
  function BeginLoad(st: HookState): (r: HookState)
    ensures r.loading
    ensures r.coins == st.coins && r.trending == st.trending && r.error == st.error
    ensures r.page == st.page && r.searchTerm == st.searchTerm && r.sortConfig == st.sortConfig
  {
    st.(loading := true)
  }

  /**
   * The settlement of `Promise.all` over the two requests: when both succeed
   * both lists are replaced and the error cleared; otherwise the rejection
   * that settled first supplies the message (`marketFirst` says whether that
   * was the market request) and neither list changes. Loading ends either way.
   */
  function SettleLoad(st: HookState, market: Outcome<seq<Coin>>, trending: Outcome<seq<TrendingCoin>>, marketFirst: bool): (r: HookState)
    ensures !r.loading
    ensures r.error.None? <==> market.Ok? && trending.Ok?
    ensures r.error.None? ==> r.coins == market.value && r.trending == trending.value
    ensures r.error.Some? ==> r.coins == st.coins && r.trending == st.trending
    ensures r.page == st.page && r.searchTerm == st.searchTerm && r.sortConfig == st.sortConfig
  {
    if market.Ok? && trending.Ok? then
      st.(coins := market.value, trending := trending.value, error := None, loading := false)
    else
      var reason := if market.Failed? && (marketFirst || trending.Ok?) then market.reason else trending.reason;
      st.(error := Some(reason.MessageOr("An error occurred")), loading := false)
  }

  /** A failed load reports the message of the request that failed, or the fallback for a non-`Error` rejection. */
  lemma FailedLoadMessage(st: HookState, market: Outcome<seq<Coin>>, trending: Outcome<seq<TrendingCoin>>, marketFirst: bool)
    ensures market.Failed? && trending.Ok? ==>
      SettleLoad(st, market, trending, marketFirst).error == Some(market.reason.MessageOr("An error occurred"))
    ensures market.Ok? && trending.Failed? ==>
      SettleLoad(st, market, trending, marketFirst).error == Some(trending.reason.MessageOr("An error occurred"))
    ensures market == Failed(OtherValue) && trending == Failed(OtherValue) ==>
      SettleLoad(st, market, trending, marketFirst).error == Some("An error occurred")
  {
  }

  /**
   * `setPage(p)`: the fetch effect depends on `page` alone, so a new page
   * number starts a load, while setting the page already shown is skipped
   * by React and changes nothing.
   */
  function SetPage(st: HookState, p: int): (r: HookState)
    ensures p == st.page ==> r == st
    ensures p != st.page ==> r.page == p && r.loading
    ensures p != st.page ==> r.coins == st.coins && r.trending == st.trending && r.error == st.error
    ensures r.searchTerm == st.searchTerm && r.sortConfig == st.sortConfig
  {
    if p == st.page then st else BeginLoad(st.(page := p))
  }

  /**
   * A page change followed by the settlement of its load: the new page stays
   * selected, loading ends, and the lists are the new page's exactly when
   * both requests succeed. On mount the state is already loading page 1, so
   * asking for page 1 again starts nothing.
   */
  lemma SetPageThenSettle(st: HookState, p: int, market: Outcome<seq<Coin>>, trending: Outcome<seq<TrendingCoin>>, marketFirst: bool)
    requires p != st.page
    ensures var r := SettleLoad(SetPage(st, p), market, trending, marketFirst);
      && r.page == p && !r.loading
      && (market.Ok? && trending.Ok? ==> r.coins == market.value && r.error.None?)
      && (market.Failed? ==> r.coins == st.coins && r.error.Some?)
    ensures SetPage(InitialHook, 1) == InitialHook && InitialHook.loading
  {
  }
}
